=== FILE: README.md ===
# SailPerf NMEA ingestion, modelled in Dafny

SailPerf reads NMEA 0183 sentences from a boat's instrument bus or a recorded
file. It checks each sentence's checksum and dispatches it by its `$`
identifier to a decoder. The decoder feeds readings into one shared sensor
pipeline. That pipeline keeps the latest value of every sensor field, counts
updates and sightings, and on every GPS fix time writes a log snapshot and a
track row.

This project models that core as pure functions and proves what it does:

- `Checksum`: the checksum as the stream reader computes and validates it.
- `Numerals`: Python's `int()`, `float()` and `int(x, 16)` on digit text,
  with the `str(n)` and `f"{n:02X}"` renderings.
- `Handlers`: the sentence decoders with their cast-or-default helpers and
  the degrees-and-minutes conversion.
- `Pipeline`: the sensor pipeline state and its operations.
- `FileReader`: the file reader's ingestion loop.

`Optional`, `Text` and `Bitwise` are support modules. They model Python's
`Optional`, `str` helpers and XOR on naturals.

Every decoder returns the calls it makes into the pipeline, in source order,
as a sequence of `Call`. `Pipeline.PerformAll` interprets that sequence. The
decoders take their number parsers and degree conversion as a `Helpers`
value, and so does the ingestion loop (`FileReader.Ingest`). The decoder and
loop properties hold for any helpers. `PythonHelpers` holds the models of
`cast_to_float`, `cast_to_int` and `convert_to_fractional_degrees`, the
instance the source uses. `FileReader.ReadFile` is the loop with that instance,
started from the pipeline's initial state.

## Model

| member | source | states |
|---|---|---|
| Checksum.CalculatedData | src/StreamReader.py:207-213 | A `$` sentence with a `*` is cut before its first `*`, and the `$` is dropped. The result has no `*`, and `"$" + data + "*"` is a prefix of the sentence. Any other non-empty sentence loses only its first character, whatever it is. The empty sentence gives empty data. |
| Checksum.Calculate | src/StreamReader.py:199-221 | The checksum is at least two upper-case hexadecimal digits, with no leading zero when it is longer than two. Read back as hexadecimal, it is the XOR of the calculated data. |
| Checksum.CalculateTwoDigits | src/StreamReader.py:216-221 | For 8-bit text the checksum is exactly two digits. |
| Checksum.CalculateStopsAtStar | src/StreamReader.py:209-210 | For a `$` sentence, the text after the first `*` does not affect the checksum. |
| Checksum.CalculateIgnoresTerminator | src/StreamReader.py:207-213 | The checksum of `$data*` equals that of `$data`. |
| Checksum.Validate | src/StreamReader.py:224-254 | A valid sentence starts with `$` and contains exactly one `*`. A missing `$`, a missing `*`, or a second `*` (the unpack raises, the error is caught) each gives false. |
| Checksum.ValidateShape | src/StreamReader.py:238-251 | On a sentence `$data*hex`, validation holds exactly when `hex` parses as hexadecimal to the XOR of `data`. Empty or non-hex text after `*` is therefore rejected. |
| Checksum.ValidateCalculated | src/StreamReader.py:118-133 | Round trip: a body followed by `*` and its own calculated checksum always validates. This is the first half of the checksum self-test. |
| Checksum.ValidateAppendedStatus | src/StreamReader.py:118-133 | The self-test's second sentence validates. Its checksum was computed before `,A,A` was appended, and `,A,A` XORs to zero. |
| Checksum.XorAppend | src/StreamReader.py:216-218 | The XOR fold over two pieces of text is the XOR of the folds of each piece. |
| Checksum.XorBelow256 | src/StreamReader.py:216-221 | The XOR of 8-bit text is below 256, so it fits the two digits of the rendering. |
| Checksum.XorDetectsChange | src/StreamReader.py:243-245 | Replacing one character of the data with a different one changes the XOR. |
| Checksum.SecondStarInvalidates | src/StreamReader.py:240-254 | No sentence with two `*` validates. |
| Checksum.SingleChangeInvalidates | src/StreamReader.py:224-254 | Changing any single character of the data of a valid sentence makes it invalid. |
| Numerals.Hex02RoundTrip | src/StreamReader.py:221 | Parsing `f"{n:02X}"` as hexadecimal gives `n` back. |
| Numerals.Hex02 | src/StreamReader.py:221 | The rendering is upper-case hexadecimal with at least two digits. It has exactly two digits iff `n < 256`. It starts with a padding `0` iff `n < 16`, so it is never longer than needed. |
| Numerals.ParseHex | src/StreamReader.py:248 | On the grammar this model gives `int(x, 16)` (hexadecimal digits only; see "Left out"), parsing succeeds iff the text is non-empty and all hexadecimal digits. |
| Numerals.ParseInt | src/NMEAHandlers.py:604-607 | On the grammar this model gives `int(x)` (see "Left out"), parsing succeeds iff what follows an optional sign is a non-empty run of decimal digits. |
| Numerals.ParseFloat | src/NMEAHandlers.py:590-593 | On the grammar this model gives `float(x)` (see "Left out"), parsing succeeds iff what follows an optional sign is digits and at most one point, with at least one digit. |
| Numerals.ParseDecimal | src/NMEAHandlers.py:590-591 | A signed `a.f` parses to the whole digits plus the fraction digits over ten to their count, negated for `-`. |
| Numerals.IntegerTextIsPointFree | src/NMEAHandlers.py:581-607 | The text `int()` accepts is exactly the text `float()` accepts that has no point. |
| Numerals.ParseRenderInt | src/NMEAHandlers.py:604-605 | `int(str(i)) == i` for every integer. |
| Numerals.IntegerTextIsFloatText | src/NMEAHandlers.py:581-607 | Text that `int()` accepts, `float()` accepts too, with the same value. |
| Handlers.CastToFloat | src/NMEAHandlers.py:581-593 | `cast_to_float` is the number `float()` gives on decimal text, and the default 0.0 on any other text. |
| Handlers.CastToFloatDecimal | src/NMEAHandlers.py:581-593 | Round trip through the digits: a signed `a.f` casts to `a + f / 10^len(f)`, negated for `-`. |
| Handlers.CastToInt | src/NMEAHandlers.py:595-607 | `cast_to_int` gives an integer iff the text is decimal text without a point, and then the integer `int()` gives. On any other text it gives the default 0.0 (a float, as the source writes it). |
| Handlers.CastToIntRejectsPoint | src/NMEAHandlers.py:595-607 | Text with a decimal point never casts to an integer; it gives the float default. |
| Handlers.CastsAgreeOnIntegers | src/NMEAHandlers.py:581-607 | The rendering of any integer casts back to that integer through both casts. |
| Handlers.EmptyFieldCastsToZero | src/NMEAHandlers.py:581-607 | An empty field casts to 0.0 through either cast. |
| Handlers.Unsigned | src/NMEAHandlers.py:567-572 | Before the sign, the decimal degrees lie in `[dmm/100, dmm/100 + 1)` and are at least the whole degrees `dmm // 100`. |
| Handlers.UnsignedRoundTrip | src/NMEAHandlers.py:567-572 | For non-negative input with minutes below 60, converting the unsigned degrees back to degrees-and-minutes recovers the input. |
| Handlers.FractionalDegrees | src/NMEAHandlers.py:559-577 | For non-negative input the result is at most 0 for hemisphere `S` or `W` (exactly those spellings) and at least 0 otherwise. Its magnitude lies in `[dmm/100, dmm/100 + 1)`. For non-negative input with minutes below 60, the magnitude converts back to the input. |
| Handlers.LatitudeExample | src/NMEAHandlers.py:141-142 | `4439.1514,N` is 44 + 39.1514/60 degrees, between 44.6525 and 44.6526. |
| Handlers.LongitudeExample | src/NMEAHandlers.py:141-143 | `06328.3343,W` is -(63 + 28.3343/60) degrees, between -63.4723 and -63.4722. |
| Handlers.DecodeGll | src/NMEAHandlers.py:147-160 | `GPGLL` makes five calls, the first its own tally under `GPGLL`. |
| Handlers.DecodeHdg | src/NMEAHandlers.py:278-286 | `HCHDG` makes six calls, the first its own tally under `HGCHDG`. |
| Handlers.DecodeHdm | src/NMEAHandlers.py:304-306 | `HCHDM` makes two calls, the first its own tally. |
| Handlers.DecodeVhw | src/NMEAHandlers.py:421-426 | `IIVHW` makes five calls, the first its own tally. |
| Handlers.DecodeDpt | src/NMEAHandlers.py:452-458 | `SDDPT` makes two calls, the first its own tally. |
| Handlers.DecodeRot | src/NMEAHandlers.py:478-480 | `TIROT` makes two calls, the first its own tally. |
| Handlers.DecodeMwv | src/NMEAHandlers.py:512-519 | `WIMWV` makes six calls, the first its own tally. |
| Handlers.DecodeVwr | src/NMEAHandlers.py:553-556 | `WIVWR` makes three calls, the first its own tally. |
| Handlers.DecodeMdaShadowed | src/NMEAHandlers.py:349-354 | The first `IIMDA` definition would make four calls, the first a tally under `IIDMA`. |
| Handlers.Decode | src/NMEAHandlers.py:123-557 | Every decoder makes one call per entry of `Needs`, the fields each call needs before it. |
| Handlers.DecodeReads | src/NMEAHandlers.py:123-557 | Each call of a decoder depends only on the fields up to the one `Needs` names for it: lines that agree there give the same call. |
| Handlers.DecodeShape | src/NMEAHandlers.py:123-557 | Every decoder makes its one counter call first and no other. It reads only into its own fields, each at most once, and makes at most its one logging call. |
| Handlers.Run | src/NMEAHandlers.py:123-557 | A decoder raises `IndexError` iff the line has fewer fields than it reads. Without a raise it makes all its calls. With one, it makes exactly the calls before the first one that needs a missing field, which is a strict prefix. |
| Handlers.Reached | src/NMEAHandlers.py:123-557 | The calls counted all need only fields that exist, and the next call, if any, needs one that does not. |
| Handlers.RunPrefix | src/NMEAHandlers.py:123-557 | The calls a short line completes are the first calls the decoder makes on any longer line that starts with it. |
| Handlers.CountsItselfOnce | src/NMEAHandlers.py:278 | Each decoder adds exactly one to its own tally (`HGCHDG` for `HCHDG`) and nothing to any other. Decoder keys never start with `$`. No decoder touches the checksum-error count. |
| Handlers.RunTallies | src/NMEAHandlers.py:123-557 | However far a decoder gets before it raises, it never tallies a `$` identifier. |
| Handlers.OnlyItsFieldsChange | src/NMEAHandlers.py:123-557 | A decoder leaves every field it does not name unchanged: presence, value and update count. |
| Handlers.TrackWindColumnsNeverWritten | src/SensorPipeline.py:103-104 | No decoder writes the three wind columns of a track row, so they keep their values. |
| Handlers.MdaShadowed | src/NMEAHandlers.py:309-392 | The `IIMDA` handler Python keeps, the second definition, changes nothing. The first definition would have tallied `IIDMA`. |
| Handlers.HandlerReading | src/NMEAHandlers.py:123-557 | After a decoder runs, each field it reads into holds exactly the value that call carried. |
| Handlers.HandlerLogged | src/NMEAHandlers.py:395-520 | `IIVHW` and `WIMWV`, the two decoders with a logging call, append exactly the row of their one logging call. |
| Handlers.NothingLogged | src/NMEAHandlers.py:250-557 | The decoders without a logging call (`HCHDG`, `HCHDM`, `IIMDA`, `SDDPT`, `TIROT`, `WIVWR`) append nothing. |
| Handlers.PositionFields | src/NMEAHandlers.py:147-160 | `GPGLL` stores latitude and longitude as signed decimal degrees from fields 1-2 and 3-4, and the fix time from field 5. |
| Handlers.PositionBeforeTrigger | src/NMEAHandlers.py:155-160 | `GPGLL` appends, in order: the GPS row, a log snapshot, then a full track row. The snapshot and the track row already carry the new position and fix time. |
| Handlers.HeadingDeviationFields | src/NMEAHandlers.py:278-286 | `HCHDG` stores fields 1-4 through the float cast (deviation reference included) and field 5 as text, and logs nothing. |
| Handlers.MagneticHeadingField | src/NMEAHandlers.py:304-306 | `HCHDM` stores field 1 through the integer cast. |
| Handlers.SpeedAndHeadingFields | src/NMEAHandlers.py:421-425 | `IIVHW` stores field 1 as the true heading and field 3 as the magnetic heading (integer cast), and field 5 as the boat speed (float). |
| Handlers.BoatSpeedLogged | src/NMEAHandlers.py:421-426 | `IIVHW` appends exactly one boat-speed row with the speed from field 5. |
| Handlers.DepthField | src/NMEAHandlers.py:452-458 | `SDDPT` stores depth 0.0 for an empty field 1, and otherwise the float cast of field 1. |
| Handlers.TurnRateField | src/NMEAHandlers.py:478-480 | `TIROT` stores field 1 as a float under `turnrate`. |
| Handlers.WindFields | src/NMEAHandlers.py:512-517 | `WIMWV` stores fields 1 and 3 as floats (angle and speed), and fields 2 and 4 as text (reference and units). |
| Handlers.WindLogged | src/NMEAHandlers.py:512-519 | `WIMWV` appends exactly one wind row: the speed from field 3, the angle from field 1. |
| Handlers.RelativeWindFields | src/NMEAHandlers.py:553-556 | `WIVWR` stores field 1 through the integer cast and field 3 as a float. |
| Handlers.HandleHealthy | src/SensorPipeline.py:99-127 | No decoder removes a track column or causes a track row to be skipped. |
| Pipeline.PerformField | src/SensorPipeline.py:183-199 | One call changes a field's value and count only when it is a reading of that field: the value becomes the reading and the count grows by one. |
| Pipeline.PerformWritten | src/SensorPipeline.py:213-235 | One call that is not a trigger reading appends exactly its own log row (GPS, boat speed or wind), or nothing for the other calls. |
| Pipeline.PerformAllAppend | src/NMEAHandlers.py:123-557 | Performing two runs of calls one after the other is performing their concatenation. |
| Pipeline.AddFunctionCounter | src/SensorPipeline.py:87-96 | The tally of `id` grows by one, every other tally stays, and nothing else in the state changes. |
| Pipeline.IncrementChecksumErrors | src/SensorPipeline.py:171-180 | The error count grows by one and nothing else changes. |
| Pipeline.ColumnValues | src/SensorPipeline.py:112 | The row holds each column's current value, in column order. |
| Pipeline.InsertTracks | src/SensorPipeline.py:99-127 | A track row is written iff all nine columns are present. It carries the timestamp and the column values in order; otherwise the skip diagnostic is written. |
| Pipeline.AddReading | src/SensorPipeline.py:183-211 | The field takes the new value and its counter and the update count grow by one; no other field or counter changes. The session clock is set (the start only once). On the trigger field a snapshot, then a track row, is appended from the new sensors. Nothing is appended otherwise. |
| Pipeline.LastWriterWins | src/SensorPipeline.py:198 | Of two readings of the same field, the second is what remains. |
| Pipeline.PerformAllFields | src/SensorPipeline.py:198-199 | After any sequence of calls, each field holds its last written value, or its old one if never written. Its counter grew by its number of writes. |
| Pipeline.PerformAllCounts | src/SensorPipeline.py:87-96 | After any sequence of calls, each tally grew by its counter calls and the update count by the readings. The error count is unchanged. |
| Pipeline.ReadingSticks | src/SensorPipeline.py:198 | When no field is read twice, every reading is what its field holds afterwards. |
| Pipeline.LoggedThenTriggered | src/SensorPipeline.py:206-210 | Calls that log once and end with the trigger append that row, then the snapshot and track row of the final sensors. |
| Pipeline.UnwrittenField | src/SensorPipeline.py:198-199 | Calls that never read into a field leave its value and count unchanged. |
| Pipeline.InitialHealthy | src/SensorPipeline.py:39-59 | The initial sensors contain all nine track columns, and nothing has been skipped. |
| Pipeline.PerformAllHealthy | src/SensorPipeline.py:99-127 | From a state with all track columns, no sequence of calls removes one or causes a skipped track row. |
| FileReader.ValidateNmeaChecksum | src/NMEAFileReader.py:60-90 | The file reader's own checksum check, with its XOR loop, agrees with the stream reader's on every input. |
| FileReader.NormalizeClean | src/NMEAFileReader.py:121-122 | A normalised line has no line feed and no whitespace at either end. A line already in that form is unchanged. |
| FileReader.IdentifierField | src/NMEAFileReader.py:123-125 | The identifier has no comma. It starts the normalised line and is followed there by a comma, or ends it when the line has none. |
| FileReader.RegistryKeys | src/NMEAFileReader.py:102-112 | Every registered identifier starts with `$`. The rate-of-turn handler is registered only under `$TROT`, and `$TIROT` is not registered. |
| FileReader.StepTallies | src/NMEAFileReader.py:123-129 | A line adds one to the tally of a `$` identifier iff that is its own identifier, whether registered or not. |
| FileReader.UnregisteredOnlyTallied | src/NMEAFileReader.py:127-131 | A line with an unregistered identifier only changes the tally. |
| FileReader.BadChecksumCounted | src/NMEAFileReader.py:131-135 | A registered line with a bad checksum adds one checksum error besides its tally, and runs no handler. |
| FileReader.ValidDispatched | src/NMEAFileReader.py:131-147 | A registered, valid line with enough fields runs its handler on the fields of the whole normalised line, after the tally. |
| FileReader.TirotOnlyTallied | src/NMEAFileReader.py:109 | A `$TIROT` line is tallied and nothing else happens. |
| FileReader.StepErrors | src/NMEAFileReader.py:131-135 | A line adds one checksum error exactly when it is registered and fails validation. |
| FileReader.StepRaisesOnTruncated | src/NMEAFileReader.py:145-147 | A line ends the loop with `IndexError` iff it is registered and valid but has fewer fields than its handler reads. |
| FileReader.StepHealthy | src/NMEAFileReader.py:115-147 | One line, raising or not, keeps all track columns and skips no track row. |
| FileReader.LoopFrom | src/NMEAFileReader.py:115-118 | The loop counts at most 1001 lines. Unless a handler raised, it counts all lines, or 1001 if there are more. |
| FileReader.ReadNmeaFile | src/NMEAFileReader.py:93-152 | The loop as written (limit check, count, normalise, tally, look up, validate, dispatch) gives the same outcome as the fold `Ingest`, and counts at most 1001 lines. |
| FileReader.Ingest | src/NMEAFileReader.py:115-147 | The loop counts at most `min(lines, 1001)` lines, and exactly that many unless a handler raised. |
| FileReader.ReadFile | src/NMEAFileReader.py:93-152 | `read_NMEA_file` with the handler class's own casts, from the initial pipeline. It counts at most `min(lines, 1001)` lines, and exactly that many unless a handler raised. It stops on the first truncated line and nowhere else. It counts one checksum error per bad line counted, and never skips a track row. |
| FileReader.IngestCounts | src/NMEAFileReader.py:115-147 | After the loop, the error count grew by the number of bad lines among those counted. Each `$` tally grew by the number of counted lines carrying it. |
| FileReader.IngestStops | src/NMEAFileReader.py:115-147 | The loop stops at the first truncated line and nowhere else. If none was reached, it read `min(lines, 1001)` lines. |
| FileReader.IngestLimit | src/NMEAFileReader.py:98-118 | Lines after the first 1001 never affect the outcome. |
| FileReader.TracksNeverSkipped | src/SensorPipeline.py:103-109 | From the pipeline's initial state, any file leaves all track columns present and no skipped track row. |

## Left out

- Reading the serial port and the file, the threads, the simulator and its trigonometry are left out. The file is a sequence of lines and each line has a clock reading.
- sqlite inserts and the text log file are modelled as one appended sequence of `Record`. The SQL text, commit handling and I/O errors are not modelled.
- `datetime.now()` is left out. One instant per line is a parameter (`clock`), shared by every call made for that line.
- `session_status`, `append_log` formatting and `insert_gps_log`/`insert_boat_speed_log`/`insert_wind_log` SQL are reduced to the record they append. The text of the log line (`str()` of floats) is not modelled.
- The decoders for sentences the file reader never registers (`GPGAA`, `GPGNS`, `GPMRC`, src/NMEAHandlers.py:61-248) and the handler class's other helpers are not part of this model.
- Numerals.ParseFloat: models `float()` only on an optional sign, decimal digits and at most one point. Python also accepts exponents (`1e3`), `inf`, `nan`, underscores between digits, surrounding whitespace and non-ASCII decimal digits; the model gives None, and the casts give 0.0, on all of these.
- Numerals.ParseFloat: a field reading `nan` or `inf`, or a numeral beyond the float range (which `float()` turns into `inf`, such as a 400-digit latitude), in a position makes `int(dmm // 100)` (src/NMEAHandlers.py:568) raise `ValueError` or `OverflowError`. Nothing catches it, so the source ends the ingestion there. The model instead stores the default 0.0 (for `nan`/`inf`) or the exact conversion of the large number (for the long numeral) and continues.
- Numerals.ParseInt: models `int()` only on an optional sign and ASCII decimal digits. Python also accepts surrounding whitespace, underscores between digits and non-ASCII decimal digits; the model gives None, and `cast_to_int` the default, on these.
- Numerals.ParseHex: models `int(x, 16)` only on hexadecimal digits. Python also accepts a sign, a `0x`/`0X` prefix, surrounding whitespace, underscores between digits and non-ASCII decimal digits (`int("٣", 16) == 3`). For example `$AB*+3`, `$AB*0x3`, `$AB* 3`, `$AB*0_3`, `$AB*٣` and `$*-0` validate in the source but not in the model.
- Checksum.Validate: inherits the hexadecimal grammar of `Numerals.ParseHex`. A checksum written with a sign, a `0x` prefix, whitespace, underscores or non-ASCII decimal digits is rejected here and accepted by the source.
- Handlers.CastToFloat: inherits the grammar of `Numerals.ParseFloat`.
- Handlers.CastToInt: inherits the grammar of `Numerals.ParseInt`.
- Handlers.Needs: that each entry is the highest field read before that call is read off the source. `DecodeReads` proves that no call depends on a later field; that each entry is also the field read last before the call is not proved. For example, `GPGLL` reads field 5 before its latitude reading.
- Floats are modelled as exact reals. IEEE rounding of `dmm % 100`, `/ 60` and `float()` is not modelled.
- Pipeline.AddReading: the numeric branch (src/SensorPipeline.py:202-204) is left out. It calls `float()` on any text for which `isdigit()` holds, after the value and its counter are stored. `isdigit()` also holds for superscript and other compatibility digits (`"²"`, `"①"`), on which `float()` raises `ValueError`. No handler and not the file reader catches it, so in the source such a text field ends the ingestion there. The text fields concerned are `WIMWV` fields 2 and 4, and `HCHDG` field 5. For example, `$WIMWV,045.0,²,12.5,N,A` with its checksum stores `wind_ref` and then stops before the wind row. The model stores the text and carries on with the remaining calls and lines.
- Handlers.DecodeDpt: an empty depth field stores the float 0.0. The source passes the integer 0 to `cast_to_float`, which returns 0.0, so the stored value is the same.
- The registry's duplicate `$HCHDM` key collapses into one entry, as it does in Python.
- Handlers.Decode: requires as many fields as the handler reads. Shorter lines are handled by `Run`, which models the `IndexError` the source does not catch as the end of the loop. The calls completed before the failing read still apply.

## Where the code and its description differ

The model follows the code in each case:
- `HCHDG` tallies itself under `HGCHDG`.
- Its deviation reference goes through the float cast, while the variation reference is kept as text.
- `cast_to_int`'s default is the float 0.0.
- The effective `IIMDA` handler is the second, empty one.
- The rate-of-turn handler is registered under `$TROT`, so `$TIROT` lines are only tallied.
- It writes `turnrate`, not the initial field `turnrate_deg`.
- The wind handlers write `wind_speed_nm`, `wind_ref` and `wind_speed_kn`, while a track row reads `wind_speed_true_nm`, `wind_dir_ref` and `wind_speed_apparent_nm`. Those columns therefore never change.
- A registered line with a valid checksum but too few fields raises `IndexError`. Nothing catches it, so it ends the ingestion.

=== FILE: bitwise.dfy ===
/** Python's `^` on non-negative integers, defined bit by bit, with the
    algebra the checksum arguments need. */
module Bitwise {

  /** The exclusive-or of the lowest bits of `x` and `y`. */
  function Bit(x: nat, y: nat): (r: nat)
    ensures r < 2 && r % 2 == r
  {
    if x % 2 == y % 2 then 0 else 1
  }

  /** `a ^ b`: lowest bit from the two lowest bits, the rest recursively. */
  function BitXor(a: nat, b: nat): nat
    decreases a + b
  {
    if a == 0 && b == 0 then 0 else 2 * BitXor(a / 2, b / 2) + Bit(a, b)
  }

  lemma XorBits(a: nat, b: nat)
    ensures BitXor(a, b) == 2 * BitXor(a / 2, b / 2) + Bit(a, b)
    ensures BitXor(a, b) / 2 == BitXor(a / 2, b / 2)
    ensures BitXor(a, b) % 2 == Bit(a, b)
  {
  }

  lemma BitAssoc(a: nat, b: nat, c: nat)
    ensures Bit(Bit(a, b), c) == Bit(a, Bit(b, c))
  {
  }

  lemma {:induction false} XorAssoc(a: nat, b: nat, c: nat)
    ensures BitXor(BitXor(a, b), c) == BitXor(a, BitXor(b, c))
    decreases a + b + c
  {
    if a + b + c > 0 {
      var a2, b2, c2 := a / 2, b / 2, c / 2;
      XorAssoc(a2, b2, c2);
      var ab := BitXor(a, b);
      var bc := BitXor(b, c);
      XorBits(a, b);
      XorBits(b, c);
      XorBits(ab, c);
      BitAssoc(a, b, c);
      calc {
        BitXor(ab, c);
        2 * BitXor(ab / 2, c2) + Bit(ab, c);
        2 * BitXor(BitXor(a2, b2), c2) + Bit(Bit(a, b), c);
        2 * BitXor(a2, BitXor(b2, c2)) + Bit(a, Bit(b, c));
        2 * BitXor(a2, bc / 2) + Bit(a, bc);
        { XorBits(a, bc); }
        BitXor(a, bc);
      }
    }
  }

  lemma {:induction false} XorComm(a: nat, b: nat)
    ensures BitXor(a, b) == BitXor(b, a)
    decreases a + b
  {
    if a + b > 0 {
      XorComm(a / 2, b / 2);
      XorBits(a, b);
      XorBits(b, a);
    }
  }

  lemma {:induction false} XorZero(a: nat)
    ensures BitXor(a, 0) == a && BitXor(0, a) == a
    decreases a
  {
    if a > 0 {
      XorZero(a / 2);
      XorBits(a, 0);
      XorBits(0, a);
    }
  }

  lemma {:induction false} XorSelf(a: nat)
    ensures BitXor(a, a) == 0
    decreases a
  {
    if a > 0 {
      XorSelf(a / 2);
      XorBits(a, a);
    }
  }

  /** Exclusive-or with a fixed value is injective. */
  lemma XorCancel(p: nat, x: nat, y: nat)
    requires BitXor(p, x) == BitXor(p, y)
    ensures x == y
  {
    XorSelf(p);
    XorZero(x);
    XorZero(y);
    XorAssoc(p, p, x);
    XorAssoc(p, p, y);
  }

  function Pow2(k: nat): (p: nat)
    ensures p >= 1
  {
    if k == 0 then 1 else 2 * Pow2(k - 1)
  }

  /** Exclusive-or never sets a bit above the highest bit of its operands. */
  lemma {:induction false} XorBelow(a: nat, b: nat, k: nat)
    requires a < Pow2(k) && b < Pow2(k)
    ensures BitXor(a, b) < Pow2(k)
    decreases k
  {
    if k > 0 && a + b > 0 {
      XorBelow(a / 2, b / 2, k - 1);
      XorBits(a, b);
    }
  }
}

=== FILE: checksum.dfy ===
/** The NMEA 0183 sentence checksum as the stream reader computes and checks
    it: the exclusive-or of the code points of every character between the
    leading `$` and the `*`, written after the `*` in hexadecimal. */
module Checksum {
  import opened Optional
  import opened Text
  import opened Numerals
  import opened Bitwise

  /** Python's `ord(c)`. */
  function Code(c: char): nat {
    c as int
  }

  /** Exclusive-or of the code points of `s`, folded from the left as the
      source's `for char in data: checksum ^= ord(char)` loop does. */
  function Xor(s: string): nat
    decreases |s|
  {
    if |s| == 0 then 0 else BitXor(Xor(s[..|s| - 1]), Code(s[|s| - 1]))
  }

  lemma {:induction false} XorAppend(a: string, b: string)
    ensures Xor(a + b) == BitXor(Xor(a), Xor(b))
    decreases |b|
  {
    if |b| == 0 {
      assert a + b == a;
      XorZero(Xor(a));
    } else {
      var ab := a + b;
      var init := b[..|b| - 1];
      assert ab[..|ab| - 1] == a + init;
      XorAppend(a, init);
      XorAssoc(Xor(a), Xor(init), Code(b[|b| - 1]));
    }
  }

  /** Every character is in the 8-bit range (ASCII and Latin-1). */
  predicate IsLatin1(s: string) {
    forall i :: 0 <= i < |s| ==> s[i] as int < 256
  }

  lemma {:induction false} XorBelow256(s: string)
    requires IsLatin1(s)
    ensures Xor(s) < 256
    decreases |s|
  {
    if |s| > 0 {
      var init := s[..|s| - 1];
      assert IsLatin1(init);
      XorBelow256(init);
      assert Pow2(8) == 256;
      XorBelow(Xor(init), Code(s[|s| - 1]), 8);
    }
  }

  /** The text `calculate_nmea_checksum` folds: the sentence cut at its
      first `*` when it starts with `$`, then without its first character,
      whatever that character is. */
  function CalculatedData(sentence: string): (data: string)
    ensures |sentence| == 0 ==> data == ""
    ensures |sentence| > 0 ==> |data| < |sentence|
    ensures (!StartsWith(sentence, "$") || '*' !in sentence) && |sentence| > 0 ==> data == sentence[1..]
    ensures StartsWith(sentence, "$") && '*' in sentence ==>
              '*' !in data && |data| + 2 <= |sentence| && "$" + data + "*" == sentence[..|data| + 2]
  {
    StarCut(sentence);
    var cut := if StartsWith(sentence, "$") && '*' in sentence then FirstField(sentence, '*') else sentence;
    if |cut| == 0 then "" else cut[1..]
  }

  /** Cutting a `$` sentence at its first `*` keeps the `$` and drops the
      `*`. */
  lemma StarCut(sentence: string)
    ensures StartsWith(sentence, "$") && '*' in sentence ==>
              var cut := FirstField(sentence, '*');
              1 <= |cut| < |sentence| && '*' !in cut && "$" + cut[1..] + "*" == sentence[..|cut| + 1]
  {
    if StartsWith(sentence, "$") && '*' in sentence {
      var cut := FirstField(sentence, '*');
      assert sentence[0] == '$';
      assert cut[0] == '$';
      assert "$" + cut[1..] == cut;
    }
  }

  /** `calculate_nmea_checksum`: the checksum of the calculated data as
      upper-case hexadecimal of at least two digits. */
  function Calculate(sentence: string): (hex: string)
    ensures |hex| >= 2 && AllDigits(hex, 16)
    ensures forall i :: 0 <= i < |hex| ==> !('a' <= hex[i] <= 'f')
    ensures ParseHex(hex) == Some(Xor(CalculatedData(sentence)))
    ensures |hex| > 2 ==> hex[0] != '0'
  {
    Hex02RoundTrip(Xor(CalculatedData(sentence)));
    Hex02(Xor(CalculatedData(sentence)))
  }

  /** For 8-bit text the checksum is exactly two hexadecimal digits. */
  lemma CalculateTwoDigits(sentence: string)
    requires IsLatin1(sentence)
    ensures |Calculate(sentence)| == 2
  {
    var data := CalculatedData(sentence);
    assert IsLatin1(data) by {
      forall i | 0 <= i < |data|
        ensures data[i] as int < 256
      {
        assert data[i] == sentence[i + 1];
      }
    }
    XorBelow256(data);
  }

  /** Only the text before the first `*` contributes. */
  lemma CalculateStopsAtStar(sentence: string)
    requires StartsWith(sentence, "$") && '*' in sentence
    ensures Calculate(sentence) == Calculate(FirstField(sentence, '*'))
  {
    var head := FirstField(sentence, '*');
    assert head[..1] == "$";
  }

  /** The checksum of a body does not change when the `*` that ends it is
      already appended (the simulator computes it that way). */
  lemma CalculateIgnoresTerminator(data: string)
    ensures Calculate("$" + data + "*") == Calculate("$" + data)
  {
    var s := "$" + data + "*";
    assert s[..1] == "$";
    assert s[|s| - 1] == '*';
    if '*' in data {
      var k :| 0 <= k < |data| && data[k] == '*';
      assert ("$" + data)[k + 1] == '*';
      assert s == ("$" + data) + "*";
      SplitPrefixFirstField("$" + data, "*");
    } else {
      assert '*' !in "$" + data;
      SplitHead("$" + data, '*', "");
    }
  }

  /** Appending text after a separator that already occurs does not move
      the first field. */
  lemma SplitPrefixFirstField(s: string, tail: string)
    requires '*' in s
    ensures FirstField(s + tail, '*') == FirstField(s, '*')
  {
    var head := FirstField(s, '*');
    assert |head| < |s|;
    var rest := s[|head| + 1..];
    assert s == head + ['*'] + rest;
    assert s + tail == head + ['*'] + (rest + tail);
    SplitHead(head, '*', rest);
    SplitHead(head, '*', rest + tail);
  }

  /** `validate_nmea_checksum`: the sentence starts with `$`, contains
      exactly one `*` (a second one makes the two-way unpack raise), the text
      after it is hexadecimal and equals the checksum of the text between. */
  function Validate(sentence: string): (ok: bool)
    ensures ok ==> StartsWith(sentence, "$") && Occurrences(sentence, '*') == 1
  {
    if !StartsWith(sentence, "$") || '*' !in sentence then false
    else
      var parts := Split(sentence[1..], '*');
      StarsAfterDollar(sentence);
      if |parts| != 2 then false
      else
        match ParseHex(parts[1])
        case None => false
        case Some(provided) => Xor(parts[0]) == provided
  }

  /** The leading `$` is not a `*`: every `*` is in the rest. */
  lemma StarsAfterDollar(sentence: string)
    requires StartsWith(sentence, "$")
    ensures Occurrences(sentence, '*') == Occurrences(sentence[1..], '*')
  {
    assert sentence == [sentence[0]] + sentence[1..];
    OccurrencesAppend([sentence[0]], sentence[1..], '*');
  }

  /** On a sentence of the wire shape `$data*hex`, validation holds exactly
      when the hex text parses to the checksum of the data. */
  lemma ValidateShape(data: string, hex: string)
    requires '*' !in data && '*' !in hex
    ensures Validate("$" + data + "*" + hex) <==> ParseHex(hex) == Some(Xor(data))
  {
    var s := "$" + data + "*" + hex;
    assert s[..1] == "$";
    assert s[1..] == data + ['*'] + hex;
    assert s[|data| + 1] == '*';
    SplitHead(data, '*', hex);
    SplitNoSeparator(hex, '*');
  }

  /** Round trip: a body with its own checksum appended validates. */
  lemma ValidateCalculated(data: string)
    requires '*' !in data
    ensures Validate("$" + data + "*" + Calculate("$" + data))
  {
    assert '*' !in "$" + data;
    assert CalculatedData("$" + data) == data;
    ValidateShape(data, Calculate("$" + data));
  }

  /** `,A,A` is two equal pairs, so its exclusive-or is zero. */
  lemma StatusXorZero()
    ensures Xor(",A,A") == 0
  {
    var s := ",A,A";
    assert s[..3] == ",A," && ",A,"[..2] == ",A" && ",A"[..1] == "," && ","[..0] == "";
    var p := BitXor(Code(','), Code('A'));
    XorZero(Code(','));
    XorAssoc(p, Code(','), Code('A'));
    XorSelf(p);
  }

  /** The self-test's second sentence: the checksum of a body, computed
      before `,A,A` is appended, still validates the longer sentence,
      because `,A,A` contributes nothing to the exclusive-or. */
  lemma ValidateAppendedStatus(data: string)
    requires '*' !in data
    ensures Validate("$" + data + ",A,A*" + Calculate("$" + data))
  {
    var s := ",A,A";
    StatusXorZero();
    XorAppend(data, s);
    XorZero(Xor(data));
    assert '*' !in data + s;
    assert "$" + data + ",A,A*" == "$" + (data + s) + "*";
    assert '*' !in "$" + data;
    assert CalculatedData("$" + data) == data;
    ValidateShape(data + s, Calculate("$" + data));
  }

  /** The checksum of a text with one character singled out. */
  lemma XorAround(pre: string, x: char, post: string)
    ensures Xor(pre + [x] + post) == BitXor(BitXor(Xor(pre), Code(x)), Xor(post))
  {
    XorAppend(pre + [x], post);
    XorAppend(pre, [x]);
    assert [x][..0] == [];
    XorZero(Code(x));
  }

  /** Replacing one character by a different one changes the checksum. */
  lemma XorDetectsChange(data: string, i: nat, c: char)
    requires i < |data| && c != data[i]
    ensures Xor(data[i := c]) != Xor(data)
  {
    var pre, post := data[..i], data[i + 1..];
    assert data == pre + [data[i]] + post;
    assert data[i := c] == pre + [c] + post;
    XorAround(pre, data[i], post);
    XorAround(pre, c, post);
    var p, q := Xor(pre), Xor(post);
    if Xor(data[i := c]) == Xor(data) {
      XorComm(BitXor(p, Code(data[i])), q);
      XorComm(BitXor(p, Code(c)), q);
      XorCancel(q, BitXor(p, Code(c)), BitXor(p, Code(data[i])));
      XorCancel(p, Code(c), Code(data[i]));
    }
  }

  /** A sentence with two `*` never validates. */
  lemma SecondStarInvalidates(head: string, middle: string, hex: string)
    ensures !Validate(head + "*" + middle + "*" + hex)
  {
    var tail := middle + "*" + hex;
    assert head + "*" + middle + "*" + hex == head + ("*" + tail);
    OccurrencesAppend(head, "*" + tail, '*');
    assert "*" + tail == "*" + (middle + "*" + hex);
    OccurrencesAppend("*", tail, '*');
    assert tail[|middle|] == '*';
  }

  /** Changing any one character of the data of a valid sentence makes it
      invalid: either the exclusive-or changes or a second `*` appears. */
  lemma SingleChangeInvalidates(data: string, hex: string, i: nat, c: char)
    requires '*' !in data && '*' !in hex
    requires Validate("$" + data + "*" + hex)
    requires i < |data| && c != data[i]
    ensures !Validate("$" + data[i := c] + "*" + hex)
  {
    var changed := data[i := c];
    if c == '*' {
      assert changed == changed[..i] + "*" + changed[i + 1..];
      assert "$" + changed + "*" + hex == ("$" + changed[..i]) + "*" + changed[i + 1..] + "*" + hex;
      SecondStarInvalidates("$" + changed[..i], changed[i + 1..], hex);
    } else {
      XorDetectsChange(data, i, c);
      ValidateShape(data, hex);
      ValidateShape(changed, hex);
    }
  }
}

=== FILE: filereader.dfy ===
/** The file reader's ingestion loop: each line of the file is normalised,
    its `$` identifier tallied, and, when a handler is registered for the
    identifier, either counted as a checksum error or handed to the handler.
    The file is a sequence of lines; the clock is a function of the line
    number. */
module FileReader {
  import opened Optional
  import opened Text
  import opened Bitwise
  import opened Numerals
  import opened Checksum
  import opened Pipeline
  import opened Handlers

  /** `limit`: once more than this many lines were counted the loop stops. */
  const Limit: nat := 1000

  /** The identifier table of the loop. `$HCHDM` is listed twice with the
      same handler, and the rate-of-turn handler sits under `$TROT`, so no
      `$TIROT` sentence ever reaches it. */
  const Registry: map<string, Sentence> := map[
    "$GPGLL" := Gll, "$HCHDM" := Hdm, "$HCHDG" := Hdg, "$IIVHW" := Vhw,
    "$SDDPT" := Dpt, "$TROT" := Rot, "$WIMWV" := Mwv, "$WIVWR" := Vwr]

  /** `validate_nmea_checksum` of the file reader, with its exclusive-or
      loop: it agrees with the stream reader's on every input. */
  method ValidateNmeaChecksum(sentence: string) returns (ok: bool)
    ensures ok == Validate(sentence)
  {
    if !StartsWith(sentence, "$") || '*' !in sentence {
      return false;
    }
    var parts := Split(sentence[1..], '*');
    if |parts| != 2 {
      // the two-way unpack raises ValueError, which is caught
      return false;
    }
    var data := parts[0];
    var checksum: nat := 0;
    var i := 0;
    while i < |data|
      invariant 0 <= i <= |data|
      invariant checksum == Xor(data[..i])
    {
      assert data[..i + 1][..i] == data[..i];
      checksum := BitXor(checksum, Code(data[i]));
      i := i + 1;
    }
    assert data[..|data|] == data;
    match ParseHex(parts[1]) {
      case None =>
        return false;
      case Some(provided) =>
        return checksum == provided;
    }
  }

  /** A line as the loop sees it: every `\n` removed, then the surrounding
      whitespace stripped. */
  function Normalize(line: string): string {
    Strip(RemoveAll(line, '\n'))
  }

  /** The normalised line has no line feed and no whitespace at either
      end; a line already in that form is left as it is. */
  lemma NormalizeClean(line: string)
    ensures '\n' !in Normalize(line)
    ensures |Normalize(line)| > 0 ==> !IsSpace(Normalize(line)[0]) && !IsSpace(Normalize(line)[|Normalize(line)| - 1])
    ensures '\n' !in line && (|line| > 0 ==> !IsSpace(line[0]) && !IsSpace(line[|line| - 1])) ==> Normalize(line) == line
  {
    var removed := RemoveAll(line, '\n');
    var trimmed := TrimStart(removed);
    var r := TrimEnd(trimmed);
    assert r == removed[|removed| - |trimmed|..][..|r|];
    if '\n' !in line && (|line| > 0 ==> !IsSpace(line[0]) && !IsSpace(line[|line| - 1])) {
      StripStripped(line);
    }
  }

  /** The identifier: the normalised line up to its first comma. */
  function Identifier(line: string): string {
    Split(Normalize(line), ',')[0]
  }

  /** The identifier has no comma, starts the normalised line, and is
      followed there by a comma unless it is the whole line. */
  lemma IdentifierField(line: string)
    ensures ',' !in Identifier(line) && StartsWith(Normalize(line), Identifier(line))
    ensures |Identifier(line)| < |Normalize(line)| ==> Normalize(line)[|Identifier(line)|] == ','
    ensures ',' in Normalize(line) <==> |Identifier(line)| < |Normalize(line)|
  {
    assert Identifier(line) == FirstField(Normalize(line), ',');
  }

  /** A registered line with a valid checksum but fewer fields than its
      handler reads: the handler raises `IndexError`. */
  predicate Truncated(line: string) {
    Identifier(line) in Registry && Validate(Normalize(line)) &&
    |Split(Normalize(line), ',')| < Arity(Registry[Identifier(line)])
  }

  /** What one line does to the pipeline, and whether its handler raised
      `IndexError` (which ends the loop). */
  function Step(p: State, h: Helpers, line: string, now: Instant): (State, bool)
  {
    var rec := Normalize(line);
    var parts := Split(rec, ',');
    var id := parts[0];
    var tallied := if StartsWith(id, "$") then AddFunctionCounter(p, id) else p;
    if id !in Registry then (tallied, false)
    else if !Validate(rec) then (IncrementChecksumErrors(tallied), false)
    else
      var run := Run(h, Registry[id], parts);
      (PerformAll(tallied, run.0, now), run.1)
  }

  /** The pipeline after the loop, how many lines it counted, and whether a
      handler raised on the last of them. */
  datatype Outcome = Outcome(state: State, seen: nat, raised: bool)

  function Min(a: nat, b: nat): nat {
    if a < b then a else b
  }

  /** What one line does, as the loop sees it: the pipeline afterwards and
      whether the handler raised. */
  type LineStep = (State, string, Instant) -> (State, bool)

  /** The reader's step, with the given number parsers. */
  function Reader(h: Helpers): LineStep {
    (q, line, now) => Step(q, h, line, now)
  }

  /** The loop from line `i` on, with `i` lines already counted: it stops
      after `Limit + 1` lines, at the end of the file, or on the first line
      whose handler raised. */
  function LoopFrom(step: LineStep, p: State, lines: seq<string>, clock: nat -> Instant, i: nat): (o: Outcome)
    requires i <= |lines| && i <= Limit + 1
    ensures i <= o.seen <= |lines| && o.seen <= Limit + 1
    ensures !o.raised ==> o.seen == Min(|lines|, Limit + 1)
    decreases |lines| - i
  {
    if i == |lines| || Limit < i then Outcome(p, i, false)
    else
      var (q, raised) := step(p, lines[i], clock(i));
      if raised then Outcome(q, i + 1, true) else LoopFrom(step, q, lines, clock, i + 1)
  }

  /** `read_NMEA_file` on the lines of a file; line `i` is read at
      `clock(i)`. */
  function Ingest(p: State, h: Helpers, lines: seq<string>, clock: nat -> Instant): (o: Outcome)
    ensures o.seen <= Min(|lines|, Limit + 1)
    ensures !o.raised ==> o.seen == Min(|lines|, Limit + 1)
  {
    LoopFrom(Reader(h), p, lines, clock, 0)
  }

  /** The loop as the source writes it: the limit check before the count,
      then normalise, tally, look up, validate, dispatch. */
  method ReadNmeaFile(p: State, h: Helpers, lines: seq<string>, clock: nat -> Instant) returns (o: Outcome)
    ensures o == Ingest(p, h, lines, clock)
    ensures o.seen <= Limit + 1
  {
    var limit := Limit;
    var count := 0;
    var q := p;
    while count < |lines|
      invariant count <= |lines| && count <= Limit + 1
      invariant LoopFrom(Reader(h), q, lines, clock, count) == Ingest(p, h, lines, clock)
      decreases |lines| - count
    {
      if limit < count {
        break;
      }
      var rec := lines[count];
      count := count + 1;
      rec := RemoveAll(rec, '\n');
      rec := Strip(rec);
      var parts := Split(rec, ',');
      var id := parts[0];
      if StartsWith(id, "$") {
        q := AddFunctionCounter(q, id);
      }
      if id in Registry {
        var ok := ValidateNmeaChecksum(rec);
        if !ok {
          q := IncrementChecksumErrors(q);
        } else {
          var run := Run(h, Registry[id], parts);
          q := PerformAll(q, run.0, clock(count - 1));
          if run.1 {
            return Outcome(q, count, true);
          }
        }
      }
    }
    return Outcome(q, count, false);
  }

  // ---------------------------------------------------------------------
  // Properties of one line.

  /** Every registered identifier starts with `$`, and the rate-of-turn
      handler is registered under `$TROT` alone. */
  lemma RegistryKeys()
    ensures forall id :: id in Registry ==> StartsWith(id, "$")
    ensures forall id :: id in Registry && Registry[id] == Rot ==> id == "$TROT"
    ensures "$TIROT" !in Registry
  {
    assert "$TIROT"[2] != "$TROT"[2];
  }

  /** The tally of a `$` identifier grows by one exactly on a line that
      carries it, registered or not; no handler touches such a tally. */
  lemma StepTallies(p: State, h: Helpers, line: string, now: Instant, key: string)
    requires |key| > 0 && key[0] == '$'
    ensures Count(Step(p, h, line, now).0.functionCounter, key) ==
              Count(p.functionCounter, key) + (if key == Identifier(line) then 1 else 0)
  {
    var rec := Normalize(line);
    var parts := Split(rec, ',');
    var id := parts[0];
    var tallied := if StartsWith(id, "$") then AddFunctionCounter(p, id) else p;
    assert Count(tallied.functionCounter, key) == Count(p.functionCounter, key) + (if key == id then 1 else 0);
    if id in Registry && Validate(rec) {
      var run := Run(h, Registry[id], parts);
      PerformAllCounts(tallied, run.0, now, key);
      RunTallies(h, Registry[id], parts, key);
    }
  }

  /** An unregistered identifier is tallied and nothing else happens: no
      checksum check, no error, no reading, no row. */
  lemma UnregisteredOnlyTallied(p: State, h: Helpers, line: string, now: Instant)
    requires Identifier(line) !in Registry
    ensures !Step(p, h, line, now).1
    ensures Step(p, h, line, now).0 == p.(functionCounter := Step(p, h, line, now).0.functionCounter)
  {
  }

  /** A registered identifier with a bad checksum adds one checksum error,
      besides its tally, and runs no handler. */
  lemma BadChecksumCounted(p: State, h: Helpers, line: string, now: Instant)
    requires Identifier(line) in Registry && !Validate(Normalize(line))
    ensures !Step(p, h, line, now).1
    ensures Step(p, h, line, now).0.checkSumErrors == p.checkSumErrors + 1
    ensures Step(p, h, line, now).0 ==
              p.(functionCounter := Step(p, h, line, now).0.functionCounter, checkSumErrors := p.checkSumErrors + 1)
  {
  }

  /** A registered identifier with a valid checksum and enough fields runs
      its handler once, on the fields of the whole normalised line, after
      the identifier's tally. */
  lemma ValidDispatched(p: State, h: Helpers, line: string, now: Instant)
    requires Identifier(line) in Registry && Validate(Normalize(line))
    requires |Split(Normalize(line), ',')| >= Arity(Registry[Identifier(line)])
    ensures Step(p, h, line, now) ==
              (Handle(AddFunctionCounter(p, Identifier(line)), h, Registry[Identifier(line)], Split(Normalize(line), ','), now), false)
  {
    RegistryKeys();
  }

  /** A `$TIROT` line is tallied and nothing else: the registry spells the
      key `$TROT`. */
  lemma TirotOnlyTallied(p: State, h: Helpers, line: string, now: Instant)
    requires Identifier(line) == "$TIROT"
    ensures Step(p, h, line, now) == (AddFunctionCounter(p, "$TIROT"), false)
  {
    assert "$TIROT" !in Registry by { RegistryKeys(); }
    assert Split(Normalize(line), ',')[0] == "$TIROT";
    assert StartsWith("$TIROT", "$");
  }

  /** A line the loop counts as a checksum error. */
  predicate BadLine(line: string) {
    Identifier(line) in Registry && !Validate(Normalize(line))
  }

  /** The checksum-error count grows by one exactly on a bad line. */
  lemma StepErrors(p: State, h: Helpers, line: string, now: Instant)
    ensures Step(p, h, line, now).0.checkSumErrors == p.checkSumErrors + (if BadLine(line) then 1 else 0)
  {
    var rec := Normalize(line);
    var parts := Split(rec, ',');
    var id := parts[0];
    var tallied := if StartsWith(id, "$") then AddFunctionCounter(p, id) else p;
    if id in Registry && Validate(rec) {
      PerformAllCounts(tallied, Run(h, Registry[id], parts).0, now, id);
    }
  }

  /** A line keeps the pipeline healthy, whether or not its handler raised. */
  lemma StepHealthy(p: State, h: Helpers, line: string, now: Instant)
    requires Healthy(p)
    ensures Healthy(Step(p, h, line, now).0)
  {
    var rec := Normalize(line);
    var parts := Split(rec, ',');
    var id := parts[0];
    var tallied := if StartsWith(id, "$") then AddFunctionCounter(p, id) else p;
    if id in Registry && Validate(rec) {
      PerformAllHealthy(tallied, Run(h, Registry[id], parts).0, now);
    }
  }

  // ---------------------------------------------------------------------
  // Properties of the loop.

  /** The sum of `weight` over `lines`. */
  function Total(lines: seq<string>, weight: string -> nat): nat {
    if |lines| == 0 then 0 else weight(lines[0]) + Total(lines[1..], weight)
  }

  /** `step` adds `weight(line)` to `measure` on every line, whether or not
      the handler raised. */
  ghost predicate Accumulates(step: LineStep, measure: State -> int, weight: string -> nat) {
    forall q, line, now {:trigger step(q, line, now)} :: measure(step(q, line, now).0) == measure(q) + weight(line)
  }

  lemma StepAccumulates(step: LineStep, measure: State -> int, weight: string -> nat, q: State, line: string, now: Instant)
    requires Accumulates(step, measure, weight)
    ensures measure(step(q, line, now).0) == measure(q) + weight(line)
  {
  }

  /** Over the lines it counted, the loop adds up what each step adds. */
  lemma {:induction false} LoopAccumulates(step: LineStep, measure: State -> int, weight: string -> nat,
                                           p: State, lines: seq<string>, clock: nat -> Instant, i: nat)
    requires i <= |lines| && i <= Limit + 1
    requires Accumulates(step, measure, weight)
    ensures measure(LoopFrom(step, p, lines, clock, i).state) ==
              measure(p) + Total(lines[i..LoopFrom(step, p, lines, clock, i).seen], weight)
    decreases |lines| - i
  {
    var o := LoopFrom(step, p, lines, clock, i);
    if i == |lines| || Limit < i {
      assert lines[i..o.seen] == [];
    } else {
      var r := step(p, lines[i], clock(i));
      StepAccumulates(step, measure, weight, p, lines[i], clock(i));
      var counted := lines[i..o.seen];
      assert counted[0] == lines[i];
      if r.1 {
        assert counted[1..] == [];
      } else {
        LoopAccumulates(step, measure, weight, r.0, lines, clock, i + 1);
        assert counted[1..] == lines[i + 1..o.seen];
      }
    }
  }

  function ErrorCount(q: State): int {
    q.checkSumErrors
  }

  function ErrorWeight(line: string): nat {
    if BadLine(line) then 1 else 0
  }

  /** The number of bad lines. */
  function BadLines(lines: seq<string>): nat {
    Total(lines, ErrorWeight)
  }

  function TallyOf(key: string): State -> int {
    (q: State) => Count(q.functionCounter, key)
  }

  function SightingWeight(key: string): string -> nat {
    line => if Identifier(line) == key then 1 else 0
  }

  /** The number of lines whose identifier is `key`. */
  function Sightings(lines: seq<string>, key: string): nat {
    Total(lines, SightingWeight(key))
  }

  lemma ReaderCountsErrors(h: Helpers)
    ensures Accumulates(Reader(h), ErrorCount, ErrorWeight)
  {
    forall q, line, now
      ensures ErrorCount(Reader(h)(q, line, now).0) == ErrorCount(q) + ErrorWeight(line)
    {
      StepErrors(q, h, line, now);
    }
  }

  lemma ReaderCountsSightings(h: Helpers, key: string)
    requires |key| > 0 && key[0] == '$'
    ensures Accumulates(Reader(h), TallyOf(key), SightingWeight(key))
  {
    forall q, line, now
      ensures TallyOf(key)(Reader(h)(q, line, now).0) == TallyOf(key)(q) + SightingWeight(key)(line)
    {
      StepTallies(q, h, line, now, key);
    }
  }

  /** `step` raises exactly on the lines `cause` picks out. */
  ghost predicate RaisesOn(step: LineStep, cause: string -> bool) {
    forall q, line, now {:trigger step(q, line, now)} :: step(q, line, now).1 == cause(line)
  }

  lemma StepRaises(step: LineStep, cause: string -> bool, q: State, line: string, now: Instant)
    requires RaisesOn(step, cause)
    ensures step(q, line, now).1 == cause(line)
  {
  }

  /** The loop stops on the first line that raises, and only there. */
  lemma {:induction false} LoopStops(step: LineStep, cause: string -> bool, p: State, lines: seq<string>, clock: nat -> Instant, i: nat)
    requires i <= |lines| && i <= Limit + 1
    requires RaisesOn(step, cause)
    ensures var o := LoopFrom(step, p, lines, clock, i);
            forall j :: i <= j < o.seen ==> (cause(lines[j]) <==> o.raised && j == o.seen - 1)
    decreases |lines| - i
  {
    if i < |lines| && i <= Limit {
      var r := step(p, lines[i], clock(i));
      StepRaises(step, cause, p, lines[i], clock(i));
      if !r.1 {
        LoopStops(step, cause, r.0, lines, clock, i + 1);
      }
    }
  }

  /** A handler raises exactly on a truncated line. */
  lemma StepRaisesOnTruncated(p: State, h: Helpers, line: string, now: Instant)
    ensures Step(p, h, line, now).1 <==> Truncated(line)
  {
  }

  lemma ReaderRaises(h: Helpers)
    ensures RaisesOn(Reader(h), Truncated)
  {
    forall q, line, now
      ensures Reader(h)(q, line, now).1 == Truncated(line)
    {
      StepRaisesOnTruncated(q, h, line, now);
    }
  }

  /** `read_NMEA_file` ends on the first truncated line among the first
      `Limit + 1`, and otherwise reads them all. */
  lemma IngestStops(p: State, h: Helpers, lines: seq<string>, clock: nat -> Instant)
    ensures var o := Ingest(p, h, lines, clock);
            forall j :: 0 <= j < o.seen ==> (Truncated(lines[j]) <==> o.raised && j == o.seen - 1)
    ensures !Ingest(p, h, lines, clock).raised ==> Ingest(p, h, lines, clock).seen == Min(|lines|, Limit + 1)
  {
    ReaderRaises(h);
    LoopStops(Reader(h), Truncated, p, lines, clock, 0);
  }

  /** `step` keeps a healthy pipeline healthy. */
  ghost predicate KeepsHealthy(step: LineStep) {
    forall q, line, now {:trigger step(q, line, now)} :: Healthy(q) ==> Healthy(step(q, line, now).0)
  }

  lemma ReaderKeepsHealthy(h: Helpers)
    ensures KeepsHealthy(Reader(h))
  {
    forall q, line, now | Healthy(q)
      ensures Healthy(Reader(h)(q, line, now).0)
    {
      StepHealthy(q, h, line, now);
    }
  }

  /** After the loop, the checksum-error count grew by the number of bad
      lines among those it counted, and the tally of each `$` identifier by
      the number of those lines that carry it. */
  lemma IngestCounts(p: State, h: Helpers, lines: seq<string>, clock: nat -> Instant, key: string)
    requires |key| > 0 && key[0] == '$'
    ensures Ingest(p, h, lines, clock).state.checkSumErrors ==
              p.checkSumErrors + BadLines(lines[..Ingest(p, h, lines, clock).seen])
    ensures Count(Ingest(p, h, lines, clock).state.functionCounter, key) ==
              Count(p.functionCounter, key) + Sightings(lines[..Ingest(p, h, lines, clock).seen], key)
  {
    ReaderCountsErrors(h);
    ReaderCountsSightings(h, key);
    LoopAccumulates(Reader(h), ErrorCount, ErrorWeight, p, lines, clock, 0);
    LoopAccumulates(Reader(h), TallyOf(key), SightingWeight(key), p, lines, clock, 0);
  }

  /** Lines after the first `Limit + 1` make no difference. */
  lemma {:induction false} LoopLimit(step: LineStep, p: State, lines: seq<string>, clock: nat -> Instant, i: nat)
    requires Limit + 1 < |lines| && i <= Limit + 1
    ensures LoopFrom(step, p, lines, clock, i) == LoopFrom(step, p, lines[..Limit + 1], clock, i)
    decreases Limit + 1 - i
  {
    if i <= Limit {
      var r := step(p, lines[i], clock(i));
      if !r.1 {
        LoopLimit(step, r.0, lines, clock, i + 1);
      }
    }
  }

  /** At most `Limit + 1` lines are read: the file beyond them is never
      looked at. */
  lemma IngestLimit(p: State, h: Helpers, lines: seq<string>, clock: nat -> Instant)
    requires Limit + 1 < |lines|
    ensures Ingest(p, h, lines, clock) == Ingest(p, h, lines[..Limit + 1], clock)
    ensures Ingest(p, h, lines, clock).seen <= Limit + 1
  {
    LoopLimit(Reader(h), p, lines, clock, 0);
  }

  lemma StepKeepsHealthy(step: LineStep, q: State, line: string, now: Instant)
    requires KeepsHealthy(step) && Healthy(q)
    ensures Healthy(step(q, line, now).0)
  {
  }

  lemma {:induction false} LoopStaysHealthy(step: LineStep, p: State, lines: seq<string>, clock: nat -> Instant, i: nat)
    requires i <= |lines| && i <= Limit + 1
    requires KeepsHealthy(step) && Healthy(p)
    ensures Healthy(LoopFrom(step, p, lines, clock, i).state)
    decreases |lines| - i
  {
    if i < |lines| && i <= Limit {
      var r := step(p, lines[i], clock(i));
      StepKeepsHealthy(step, p, lines[i], clock(i));
      if !r.1 {
        LoopStaysHealthy(step, r.0, lines, clock, i + 1);
      }
    }
  }

  /** From the pipeline's initial state no track row is ever skipped: all
      nine track columns are present from the start and never removed. */
  lemma TracksNeverSkipped(h: Helpers, lines: seq<string>, clock: nat -> Instant)
    ensures HasColumns(Ingest(Initial, h, lines, clock).state.sensors, TrackColumns)
    ensures TrackSkipped !in Ingest(Initial, h, lines, clock).state.written
  {
    InitialHealthy();
    ReaderKeepsHealthy(h);
    LoopStaysHealthy(Reader(h), Initial, lines, clock, 0);
  }

  /** `read_NMEA_file` as the source runs it: from the pipeline's initial
      state, with the handler class's own casts and degree conversion. It
      counts at most 1001 lines, stops only on the first truncated line,
      counts one checksum error per bad line, and never skips a track
      row. */
  function ReadFile(lines: seq<string>, clock: nat -> Instant): (o: Outcome)
    ensures o.seen <= Min(|lines|, Limit + 1)
    ensures !o.raised ==> o.seen == Min(|lines|, Limit + 1)
    ensures forall j :: 0 <= j < o.seen ==> (Truncated(lines[j]) <==> o.raised && j == o.seen - 1)
    ensures o.state.checkSumErrors == Initial.checkSumErrors + BadLines(lines[..o.seen])
    ensures HasColumns(o.state.sensors, TrackColumns) && TrackSkipped !in o.state.written
  {
    IngestStops(Initial, PythonHelpers, lines, clock);
    IngestCounts(Initial, PythonHelpers, lines, clock, "$");
    TracksNeverSkipped(PythonHelpers, lines, clock);
    Ingest(Initial, PythonHelpers, lines, clock)
  }
}

=== FILE: handlers.dfy ===
/** The per-sentence decoders. Each one splits nothing itself: it receives
    the comma-separated fields of the whole line (`parts[0]` is the `$`
    identifier, the last field still carries `*hh`), reads fixed positions,
    converts with "cast or default", and returns the calls it makes into the
    pipeline, in order. */
module Handlers {
  import opened Optional
  import opened Numerals
  import opened Pipeline

  /** `cast_to_float`: the number when the text is decimal text, otherwise
      the default 0.0. */
  function CastToFloat(text: string): (r: real)
    ensures FloatText(text) ==> ParseFloat(text) == Some(r)
    ensures !FloatText(text) ==> r == 0.0
  {
    ParseFloat(text).GetOr(0.0)
  }

  /** A signed decimal `a.f` casts to its value: the whole digits plus the
      fraction digits over ten to their count (`"4439.1514"` is
      4439 + 1514/10000). */
  lemma CastToFloatDecimal(negative: bool, a: string, f: string)
    requires AllDigits(a, 10) && AllDigits(f, 10) && |a| + |f| > 0
    ensures var magnitude := ValueOf(a, 10) as real + ValueOf(f, 10) as real / Pow10(|f|) as real;
      CastToFloat(SignText(negative) + a + "." + f) == (if negative then -magnitude else magnitude)
  {
    ParseDecimal(negative, a, f);
  }

  /** `cast_to_int`: the integer when the text is a sign and digits with no
      point, otherwise the default, which the source writes as the float
      `0.0`. */
  function CastToInt(text: string): (r: Value)
    ensures r.Int? <==> FloatText(text) && '.' !in text
    ensures r.Int? ==> ParseInt(text) == Some(r.i)
    ensures !r.Int? ==> r == Float(0.0)
  {
    IntegerTextIsPointFree(text);
    match ParseInt(text)
    case Some(i) => Int(i)
    case None => Float(0.0)
  }

  /** Decimal text such as `5.0` is not integer text: the default comes
      back, as a float. */
  lemma CastToIntRejectsPoint(text: string)
    requires '.' in text
    ensures CastToInt(text) == Float(0.0)
  {
    var body := SplitSign(text).1;
    var k :| 0 <= k < |text| && text[k] == '.';
    if |text| > 0 && (text[0] == '-' || text[0] == '+') {
      assert body[k - 1] == '.';
    } else {
      assert body[k] == '.';
    }
  }

  /** Integer text casts to the same number either way. */
  lemma CastsAgreeOnIntegers(i: int)
    ensures CastToInt(RenderInt(i)) == Int(i)
    ensures CastToFloat(RenderInt(i)) == i as real
  {
    ParseRenderInt(i);
    IntegerTextIsFloatText(RenderInt(i));
  }

  predicate IsSouthOrWest(hemisphere: string) {
    hemisphere == "S" || hemisphere == "W"
  }

  /** Degrees-and-minutes to decimal degrees, before the hemisphere sign:
      the whole degrees `dmm // 100` plus the minutes `dmm % 100` (Python's
      floored quotient and remainder) over 60. */
  function Unsigned(dmm: real): (r: real)
    ensures dmm / 100.0 <= r < dmm / 100.0 + 1.0
    ensures (dmm / 100.0).Floor as real <= r
  {
    var degrees := (dmm / 100.0).Floor;
    var minutes := dmm - 100.0 * degrees as real;
    degrees as real + minutes / 60.0
  }

  /** A degrees-and-minutes value is well formed when it is non-negative
      and its minutes are below 60. */
  predicate WellFormedDmm(dmm: real) {
    dmm >= 0.0 && dmm - 100.0 * (dmm / 100.0).Floor as real < 60.0
  }

  /** Decimal degrees back to the degrees-and-minutes value. */
  function DmmOf(degrees: real): real {
    100.0 * degrees.Floor as real + 60.0 * (degrees - degrees.Floor as real)
  }

  /** The unsigned conversion loses nothing on a well-formed value. */
  lemma UnsignedRoundTrip(dmm: real)
    requires WellFormedDmm(dmm)
    ensures DmmOf(Unsigned(dmm)) == dmm
  {
    var d := (dmm / 100.0).Floor;
    var m := dmm - 100.0 * d as real;
    assert 0.0 <= m;
    var r := d as real + m / 60.0;
    assert d as real <= r < d as real + 1.0;
    assert r.Floor == d;
    assert Unsigned(dmm) == r;
  }

  /** `convert_to_fractional_degrees`: the sign says the hemisphere (only
      `S` and `W`, spelled exactly so, are negative), the magnitude lies
      within a degree above the `ddmm` value over 100, and for a
      well-formed value the degrees-and-minutes value is recovered from
      the magnitude. */
  function FractionalDegrees(dmm: real, hemisphere: string): (r: real)
    ensures dmm >= 0.0 && IsSouthOrWest(hemisphere) ==> r <= 0.0
    ensures dmm >= 0.0 && !IsSouthOrWest(hemisphere) ==> r >= 0.0
    ensures var magnitude := if IsSouthOrWest(hemisphere) then -r else r;
      dmm / 100.0 <= magnitude < dmm / 100.0 + 1.0
    ensures WellFormedDmm(dmm) ==> DmmOf(if IsSouthOrWest(hemisphere) then -r else r) == dmm
  {
    var magnitude := Unsigned(dmm);
    assert WellFormedDmm(dmm) ==> DmmOf(magnitude) == dmm by {
      if WellFormedDmm(dmm) { UnsignedRoundTrip(dmm); }
    }
    if IsSouthOrWest(hemisphere) then -magnitude else magnitude
  }

  /** The documented example `4439.1514,N`: 44 degrees 39.1514 minutes. */
  lemma LatitudeExample()
    ensures FractionalDegrees(4439.1514, "N") == 44.0 + 39.1514 / 60.0
    ensures 44.6525 < FractionalDegrees(4439.1514, "N") < 44.6526
  {
    assert (4439.1514 / 100.0).Floor == 44;
  }

  /** The documented example `06328.3343,W`: 63 degrees 28.3343 minutes
      west. */
  lemma LongitudeExample()
    ensures FractionalDegrees(6328.3343, "W") == -(63.0 + 28.3343 / 60.0)
    ensures -63.4723 < FractionalDegrees(6328.3343, "W") < -63.4722
  {
    assert (6328.3343 / 100.0).Floor == 63;
  }

  /** The three conversion helpers of the handler class, as the handlers
      see them. The handlers below and the ingestion loop take them as a
      parameter and hold for any three; `PythonHelpers` is the instance the
      source uses, and `FileReader.ReadFile` runs the loop with it. */
  datatype Helpers = Helpers(toFloat: string -> real, toInt: string -> Value, toDegrees: (real, string) -> real)

  const PythonHelpers := Helpers(CastToFloat, CastToInt, FractionalDegrees)

  /** The sentence kinds the class has a handler for. `Mda` is the second
      `IIMDA` definition, the one Python keeps. */
  datatype Sentence = Gll | Hdg | Hdm | Mda | Vhw | Dpt | Rot | Mwv | Vwr

  /** The key each handler tallies itself under in the function counter;
      the heading/deviation handler spells its own name `HGCHDG`, and the
      effective `IIMDA` handler tallies nothing. */
  function CounterKey(kind: Sentence): Option<string> {
    match kind
    case Gll => Some("GPGLL")
    case Hdg => Some("HGCHDG")
    case Hdm => Some("HCHDM")
    case Mda => None
    case Vhw => Some("IIVHW")
    case Dpt => Some("SDDPT")
    case Rot => Some("TIROT")
    case Mwv => Some("WIMWV")
    case Vwr => Some("WIVWR")
  }

  /** The fields each handler writes. */
  function Fields(kind: Sentence): set<Field> {
    match kind
    case Gll => {Latitude, Longitude, TriggerKey}
    case Hdg => {HeadingMag, DeviationDeg, DeviationRef, VariationDeg, VariationRef}
    case Hdm => {HeadingMag}
    case Mda => {}
    case Vhw => {HeadingTrue, HeadingMag, BoatSpeedNm}
    case Dpt => {DepthM}
    case Rot => {Turnrate}
    case Mwv => {WindAngleRel, WindRef, WindSpeedNm, WindSpeedUnits}
    case Vwr => {WindAngleRelative, WindSpeedKn}
  }

  /** The calls start with the one counter call for `key` and make no
      other counter call. */
  predicate TalliesOnlyFirst(calls: seq<Call>, key: string) {
    && |calls| > 0 && calls[0] == FunctionCounter(key)
    && forall c :: c in calls[1..] ==> !c.FunctionCounter?
  }

  /** Every reading among the calls is for one of `fields`. */
  predicate WritesOnly(calls: seq<Call>, fields: set<Field>) {
    forall c :: c in calls && c.Reading? ==> c.field in fields
  }

  /** For each call of a handler, in order, the highest field index read
      before it is made: a line with that many fields or fewer raises
      `IndexError` before the call. */
  function Needs(kind: Sentence): seq<nat> {
    match kind
    case Gll => [0, 4, 5, 5, 5]
    case Hdg => [0, 1, 2, 3, 4, 5]
    case Hdm => [0, 1]
    case Mda => []
    case Vhw => [0, 1, 3, 5, 5]
    case Dpt => [0, 1]
    case Rot => [0, 1]
    case Mwv => [0, 1, 2, 3, 4, 4]
    case Vwr => [0, 1, 3]
  }

  /** The number of fields a handler reads: one more than the highest
      index it reads. */
  function Arity(kind: Sentence): (n: nat)
    ensures |Needs(kind)| == 0 ==> n == 0
    ensures |Needs(kind)| > 0 ==> n == Needs(kind)[|Needs(kind)| - 1] + 1
    ensures forall i :: 0 <= i < |Needs(kind)| ==> Needs(kind)[i] < n
  {
    match kind
    case Gll => 6
    case Hdg => 6
    case Hdm => 2
    case Mda => 0
    case Vhw => 6
    case Dpt => 2
    case Rot => 2
    case Mwv => 5
    case Vwr => 4
  }

  /** `GPGLL`: position from two DMM/hemisphere pairs, then the fix time;
      the trigger field is written last. */
  function DecodeGll(h: Helpers, parts: seq<string>): (calls: seq<Call>)
    requires |parts| >= 6
    ensures |calls| == 5 && calls[0] == FunctionCounter("GPGLL")
  {
    var lat := h.toDegrees(h.toFloat(parts[1]), parts[2]);
    var lon := h.toDegrees(h.toFloat(parts[3]), parts[4]);
    [FunctionCounter("GPGLL"), GpsLog(lat, lon),
     Reading(Latitude, Float(lat)), Reading(Longitude, Float(lon)),
     Reading(TriggerKey, Float(h.toFloat(parts[5])))]
  }

  /** `HCHDG`: heading, deviation and variation with their references (the
      deviation reference goes through the float cast, the variation
      reference is kept as text). */
  function DecodeHdg(h: Helpers, parts: seq<string>): (calls: seq<Call>)
    requires |parts| >= 6
    ensures |calls| == 6 && calls[0] == FunctionCounter("HGCHDG")
  {
    [FunctionCounter("HGCHDG"),
     Reading(HeadingMag, Float(h.toFloat(parts[1]))),
     Reading(DeviationDeg, Float(h.toFloat(parts[2]))),
     Reading(DeviationRef, Float(h.toFloat(parts[3]))),
     Reading(VariationDeg, Float(h.toFloat(parts[4]))),
     Reading(VariationRef, Str(parts[5]))]
  }

  /** `HCHDM`: magnetic heading as an integer. */
  function DecodeHdm(h: Helpers, parts: seq<string>): (calls: seq<Call>)
    requires |parts| >= 2
    ensures |calls| == 2 && calls[0] == FunctionCounter("HCHDM")
  {
    [FunctionCounter("HCHDM"), Reading(HeadingMag, h.toInt(parts[1]))]
  }

  /** `IIVHW`: true and magnetic heading as integers, speed in knots as a
      float, then one boat-speed row. */
  function DecodeVhw(h: Helpers, parts: seq<string>): (calls: seq<Call>)
    requires |parts| >= 6
    ensures |calls| == 5 && calls[0] == FunctionCounter("IIVHW")
  {
    [FunctionCounter("IIVHW"),
     Reading(HeadingTrue, h.toInt(parts[1])),
     Reading(HeadingMag, h.toInt(parts[3])),
     Reading(BoatSpeedNm, Float(h.toFloat(parts[5]))),
     BoatSpeedLog(h.toFloat(parts[5]))]
  }

  /** `SDDPT`: depth below the transducer; an empty field is depth 0. */
  function DecodeDpt(h: Helpers, parts: seq<string>): (calls: seq<Call>)
    requires |parts| >= 2
    ensures |calls| == 2 && calls[0] == FunctionCounter("SDDPT")
  {
    var depth := if |parts[1]| == 0 then 0.0 else h.toFloat(parts[1]);
    [FunctionCounter("SDDPT"), Reading(DepthM, Float(depth))]
  }

  /** `TIROT`: rate of turn. */
  function DecodeRot(h: Helpers, parts: seq<string>): (calls: seq<Call>)
    requires |parts| >= 2
    ensures |calls| == 2 && calls[0] == FunctionCounter("TIROT")
  {
    [FunctionCounter("TIROT"), Reading(Turnrate, Float(h.toFloat(parts[1])))]
  }

  /** `WIMWV`: wind angle and speed as floats, reference and units as
      text, then one wind row of (speed, angle). */
  function DecodeMwv(h: Helpers, parts: seq<string>): (calls: seq<Call>)
    requires |parts| >= 5
    ensures |calls| == 6 && calls[0] == FunctionCounter("WIMWV")
  {
    [FunctionCounter("WIMWV"),
     Reading(WindAngleRel, Float(h.toFloat(parts[1]))),
     Reading(WindRef, Str(parts[2])),
     Reading(WindSpeedNm, Float(h.toFloat(parts[3]))),
     Reading(WindSpeedUnits, Str(parts[4])),
     WindLog(h.toFloat(parts[3]), h.toFloat(parts[1]))]
  }

  /** `WIVWR`: relative wind angle through the integer cast, speed in knots
      as a float. */
  function DecodeVwr(h: Helpers, parts: seq<string>): (calls: seq<Call>)
    requires |parts| >= 4
    ensures |calls| == 3 && calls[0] == FunctionCounter("WIVWR")
  {
    [FunctionCounter("WIVWR"),
     Reading(WindAngleRelative, h.toInt(parts[1])),
     Reading(WindSpeedKn, Float(h.toFloat(parts[3])))]
  }

  /** The first `IIMDA` definition: pressure and temperature through the
      integer cast. Python replaces it with the second definition at class
      creation, so no caller can reach it. */
  function DecodeMdaShadowed(h: Helpers, parts: seq<string>): (calls: seq<Call>)
    requires |parts| >= 6
    ensures |calls| == 4 && calls[0] == FunctionCounter("IIDMA")
  {
    [FunctionCounter("IIDMA"),
     Reading(BaroPresMb, h.toInt(parts[1])),
     Reading(BaroPresIn, h.toInt(parts[3])),
     Reading(TempC, h.toInt(parts[5]))]
  }

  /** The handler for a sentence kind, on a line with enough fields. */
  function Decode(h: Helpers, kind: Sentence, parts: seq<string>): (calls: seq<Call>)
    requires |parts| >= Arity(kind)
    ensures |calls| == |Needs(kind)|
  {
    match kind
    case Gll => DecodeGll(h, parts)
    case Hdg => DecodeHdg(h, parts)
    case Hdm => DecodeHdm(h, parts)
    case Mda => []
    case Vhw => DecodeVhw(h, parts)
    case Dpt => DecodeDpt(h, parts)
    case Rot => DecodeRot(h, parts)
    case Mwv => DecodeMwv(h, parts)
    case Vwr => DecodeVwr(h, parts)
  }

  /** Which of the handler's calls writes a row of its own (position, boat
      speed or wind), if any. */
  function LogCall(kind: Sentence): Option<nat> {
    match kind
    case Gll => Some(1)
    case Vhw => Some(4)
    case Mwv => Some(5)
    case _ => None
  }

  /** The shape of every handler's calls: its one counter call first and
      no other, readings only into the fields it names and into each of
      them once, and at most the one logging call. */
  predicate WellShaped(calls: seq<Call>, kind: Sentence) {
    && (CounterKey(kind).Some? ==> TalliesOnlyFirst(calls, CounterKey(kind).value))
    && (CounterKey(kind).None? ==> calls == [])
    && WritesOnly(calls, Fields(kind))
    && DistinctReadings(calls)
    && (LogCall(kind).Some? ==> LogCall(kind).value < |calls|)
    && LogsOnlyAt(calls, LogCall(kind))
  }

  /** Every handler's calls are well shaped. */
  lemma DecodeShape(h: Helpers, kind: Sentence, parts: seq<string>)
    requires |parts| >= Arity(kind)
    ensures WellShaped(Decode(h, kind, parts), kind)
  {
    match kind
    case Gll => GllShape(h, parts);
    case Hdg => HdgShape(h, parts);
    case Hdm => HdmShape(h, parts);
    case Mda =>
    case Vhw => VhwShape(h, parts);
    case Dpt => DptShape(h, parts);
    case Rot => RotShape(h, parts);
    case Mwv => MwvShape(h, parts);
    case Vwr => VwrShape(h, parts);
  }

  lemma GllShape(h: Helpers, parts: seq<string>)
    requires |parts| >= 6
    ensures WellShaped(DecodeGll(h, parts), Gll)
  {
  }

  lemma HdgShape(h: Helpers, parts: seq<string>)
    requires |parts| >= 6
    ensures WellShaped(DecodeHdg(h, parts), Hdg)
  {
  }

  lemma HdmShape(h: Helpers, parts: seq<string>)
    requires |parts| >= 2
    ensures WellShaped(DecodeHdm(h, parts), Hdm)
  {
  }

  lemma VhwShape(h: Helpers, parts: seq<string>)
    requires |parts| >= 6
    ensures WellShaped(DecodeVhw(h, parts), Vhw)
  {
  }

  lemma DptShape(h: Helpers, parts: seq<string>)
    requires |parts| >= 2
    ensures WellShaped(DecodeDpt(h, parts), Dpt)
  {
  }

  lemma RotShape(h: Helpers, parts: seq<string>)
    requires |parts| >= 2
    ensures WellShaped(DecodeRot(h, parts), Rot)
  {
  }

  lemma MwvShape(h: Helpers, parts: seq<string>)
    requires |parts| >= 5
    ensures WellShaped(DecodeMwv(h, parts), Mwv)
  {
  }

  lemma VwrShape(h: Helpers, parts: seq<string>)
    requires |parts| >= 4
    ensures WellShaped(DecodeVwr(h, parts), Vwr)
  {
  }

  /** Only the position handler writes the trigger field. */
  lemma TriggerOnlyFromPosition(kind: Sentence)
    ensures TriggerKey in Fields(kind) <==> kind == Gll
  {
  }

  /** The fields padded with empty text up to `n`. */
  function Pad(parts: seq<string>, n: nat): (padded: seq<string>)
    ensures |padded| >= n && |padded| >= |parts|
    ensures padded[..|parts|] == parts
    decreases n - |parts|
  {
    if |parts| >= n then parts else Pad(parts + [""], n)
  }

  /** How many calls are made before field `n` is first needed: every
      call before that one needs only fields below `n`, and the one there,
      if any, needs field `n` or later. */
  function Reached(needs: seq<nat>, n: nat): (k: nat)
    ensures k <= |needs|
    ensures forall i :: 0 <= i < k ==> needs[i] < n
    ensures k < |needs| ==> needs[k] >= n
    decreases |needs|
  {
    if |needs| == 0 || needs[0] >= n then 0
    else
      var rest := Reached(needs[1..], n);
      assert forall i :: 1 <= i < 1 + rest ==> needs[i] == needs[1..][i - 1];
      1 + rest
  }

  /** What running a handler on a line does: the calls it completes, and
      whether it then raised `IndexError` for want of a field. The calls
      made before the failing read only read fields that exist, so padding
      the missing ones does not change them. */
  function Run(h: Helpers, kind: Sentence, parts: seq<string>): (r: (seq<Call>, bool))
    ensures !r.1 <==> |parts| >= Arity(kind)
    ensures !r.1 ==> r.0 == Decode(h, kind, parts)
    ensures r.1 ==> |r.0| == Reached(Needs(kind), |parts|) < |Needs(kind)|
    ensures r.0 <= Decode(h, kind, Pad(parts, Arity(kind)))
  {
    if |parts| >= Arity(kind) then (Decode(h, kind, parts), false)
    else
      var calls := Decode(h, kind, Pad(parts, Arity(kind)));
      var k := Reached(Needs(kind), |parts|);
      assert k < |Needs(kind)| by { ReachedShort(Needs(kind), |parts|); }
      (calls[..k], true)
  }

  /** Each call of a handler depends only on the fields up to the one
      `Needs` names for it: two lines that agree on those fields give the
      same call there. */
  lemma DecodeReads(h: Helpers, kind: Sentence, p: seq<string>, q: seq<string>, i: nat)
    requires |p| >= Arity(kind) && |q| >= Arity(kind)
    requires i < |Needs(kind)|
    requires p[..Needs(kind)[i] + 1] == q[..Needs(kind)[i] + 1]
    ensures Decode(h, kind, p)[i] == Decode(h, kind, q)[i]
  {
    var n := Needs(kind)[i];
    forall j | 0 <= j <= n
      ensures p[j] == q[j]
    {
      assert p[j] == p[..n + 1][j];
      assert q[j] == q[..n + 1][j];
    }
  }

  /** What a line that ends early runs is exactly the beginning of what the
      same handler would run on any longer line that starts with it: the
      calls it completes do not depend on how the missing fields are
      filled in. */
  lemma RunPrefix(h: Helpers, kind: Sentence, parts: seq<string>, q: seq<string>)
    requires |q| >= Arity(kind) && |parts| <= |q| && q[..|parts|] == parts
    ensures Run(h, kind, parts).0 == Decode(h, kind, q)[..|Run(h, kind, parts).0|]
  {
    var calls := Run(h, kind, parts).0;
    var full := Decode(h, kind, q);
    if |parts| >= Arity(kind) {
      forall i | 0 <= i < |calls|
        ensures calls[i] == full[i]
      {
        var n := Needs(kind)[i];
        assert parts[..n + 1] == q[..n + 1];
        DecodeReads(h, kind, parts, q, i);
      }
    } else {
      var padded := Pad(parts, Arity(kind));
      forall i | 0 <= i < |calls|
        ensures calls[i] == full[i]
      {
        var n := Needs(kind)[i];
        assert n < |parts|;
        assert padded[..n + 1] == parts[..n + 1] by {
          assert padded[..|parts|] == parts;
        }
        assert q[..n + 1] == parts[..n + 1];
        DecodeReads(h, kind, padded, q, i);
      }
    }
  }

  lemma {:induction false} ReachedShort(needs: seq<nat>, n: nat)
    requires |needs| > 0 && n <= needs[|needs| - 1]
    ensures Reached(needs, n) < |needs|
    decreases |needs|
  {
    if needs[0] < n {
      ReachedShort(needs[1..], n);
    }
  }

  // ---------------------------------------------------------------------
  // Properties of the decoders.

  /** The pipeline after the handler for `kind` has run on a line with
      enough fields. */
  function Handle(p: State, h: Helpers, kind: Sentence, parts: seq<string>, now: Instant): State
    requires |parts| >= Arity(kind)
  {
    PerformAll(p, Decode(h, kind, parts), now)
  }

  /** Every handler but the effective `IIMDA` adds exactly one to its own
      tally and to no other; its key never starts with `$`, so it never
      collides with the identifiers the ingestion loop tallies. Handlers
      never touch the checksum-error count. */
  lemma CountsItselfOnce(p: State, h: Helpers, kind: Sentence, parts: seq<string>, now: Instant, id: string)
    requires |parts| >= Arity(kind)
    ensures Count(Handle(p, h, kind, parts, now).functionCounter, id) ==
              Count(p.functionCounter, id) + (if CounterKey(kind) == Some(id) then 1 else 0)
    ensures Handle(p, h, kind, parts, now).checkSumErrors == p.checkSumErrors
    ensures CounterKey(kind).Some? ==> |CounterKey(kind).value| > 0 && CounterKey(kind).value[0] != '$'
  {
    var calls := Decode(h, kind, parts);
    DecodeShape(h, kind, parts);
    PerformAllCounts(p, calls, now, id);
    if CounterKey(kind).Some? {
      TalliesOfNone(calls[1..], id);
    }
  }

  /** However far a handler gets before it raises, it makes no counter
      call for an identifier that starts with `$`. */
  lemma RunTallies(h: Helpers, kind: Sentence, parts: seq<string>, id: string)
    requires |id| > 0 && id[0] == '$'
    ensures TalliesOf(Run(h, kind, parts).0, id) == 0
  {
    var padded := Pad(parts, Arity(kind));
    var calls := Decode(h, kind, padded);
    var run := Run(h, kind, parts).0;
    DecodeShape(h, kind, padded);
    CounterKeyNotIdentifier(kind);
    assert forall c :: c in calls && c.FunctionCounter? ==> c.id != id;
    assert forall c :: c in run ==> c in calls;
    TalliesOfNone(run, id);
  }

  /** No handler's counter key starts with `$`. */
  lemma CounterKeyNotIdentifier(kind: Sentence)
    ensures CounterKey(kind).Some? ==> |CounterKey(kind).value| > 0 && CounterKey(kind).value[0] != '$'
  {
  }

  /** A handler changes no field it does not name: presence, value and
      update count of every other field stay as they were. */
  lemma OnlyItsFieldsChange(p: State, h: Helpers, kind: Sentence, parts: seq<string>, now: Instant, field: Field)
    requires |parts| >= Arity(kind)
    requires field !in Fields(kind)
    ensures Lookup(Handle(p, h, kind, parts, now).sensors, field) == Lookup(p.sensors, field)
    ensures Count(Handle(p, h, kind, parts, now).sensorCounter, field) == Count(p.sensorCounter, field)
  {
    var calls := Decode(h, kind, parts);
    DecodeShape(h, kind, parts);
    assert WritesOnly(calls, Fields(kind));
    UnwrittenField(p, calls, now, field);
  }

  /** The wind columns of a track row. */
  const TrackWindColumns: set<Field> := {WindSpeedTrueNm, WindDirRef, WindSpeedApparentNm}

  /** No handler writes the wind columns a track row carries (the wind
      handlers write `wind_speed_nm`, `wind_ref` and `wind_speed_kn`
      instead), so those columns keep their initial values for ever. */
  lemma TrackWindColumnsNeverWritten(p: State, h: Helpers, kind: Sentence, parts: seq<string>, now: Instant, column: Field)
    requires |parts| >= Arity(kind)
    requires column in TrackWindColumns
    ensures Lookup(Handle(p, h, kind, parts, now).sensors, column) == Lookup(p.sensors, column)
  {
    OnlyItsFieldsChange(p, h, kind, parts, now, column);
  }

  /** The second `IIMDA` definition shadows the first: the handler Python
      keeps makes no call at all, so the pipeline does not change, not even
      the tally the first definition kept under `IIDMA`. */
  lemma MdaShadowed(p: State, h: Helpers, parts: seq<string>, now: Instant)
    ensures Handle(p, h, Mda, parts, now) == p
    ensures |parts| >= 6 ==> DecodeMdaShadowed(h, parts)[0] == FunctionCounter("IIDMA")
  {
  }

  /** The value the handler for `kind` leaves in the field its `i`-th
      call reads into: the value that call carries (no handler writes a
      field twice). */
  lemma HandlerReading(p: State, h: Helpers, kind: Sentence, parts: seq<string>, now: Instant, i: nat)
    requires |parts| >= Arity(kind)
    requires i < |Decode(h, kind, parts)| && Decode(h, kind, parts)[i].Reading?
    ensures Lookup(Handle(p, h, kind, parts, now).sensors, Decode(h, kind, parts)[i].field) == Some(Decode(h, kind, parts)[i].value)
  {
    DecodeShape(h, kind, parts);
    ReadingSticks(p, Decode(h, kind, parts), now, i);
  }

  /** A handler that logs, other than the position handler (whose trigger
      reading logs too), appends exactly the row of its one logging call. */
  lemma HandlerLogged(p: State, h: Helpers, kind: Sentence, parts: seq<string>, now: Instant)
    requires |parts| >= Arity(kind)
    requires LogCall(kind).Some? && kind != Gll
    ensures LogCall(kind).value < |Decode(h, kind, parts)|
    ensures Handle(p, h, kind, parts, now).written == p.written + RowOf(Decode(h, kind, parts)[LogCall(kind).value], now)
  {
    var calls := Decode(h, kind, parts);
    DecodeShape(h, kind, parts);
    TriggerOnlyFromPosition(kind);
    PerformAllWritten(p, calls, now);
    LoggedOnce(calls, now, LogCall(kind).value);
  }

  /** Depth below the transducer: 0.0 when the field is empty
      (`$SDDPT,,0,210*78`), otherwise the float cast of the field. */
  lemma DepthField(p: State, h: Helpers, parts: seq<string>, now: Instant)
    requires |parts| >= 2
    ensures parts[1] == "" ==> Lookup(Handle(p, h, Dpt, parts, now).sensors, DepthM) == Some(Float(0.0))
    ensures parts[1] != "" ==> Lookup(Handle(p, h, Dpt, parts, now).sensors, DepthM) == Some(Float(h.toFloat(parts[1])))
  {
    HandlerReading(p, h, Dpt, parts, now, 1);
  }

  /** The source's empty-depth branch agrees with the cast's own default:
      an empty field casts to 0.0 anyway. */
  lemma EmptyFieldCastsToZero()
    ensures CastToFloat("") == 0.0
    ensures CastToInt("") == Float(0.0)
  {
  }

  /** A position sentence stores latitude and longitude in signed decimal
      degrees and the fix time as a float. */
  lemma PositionFields(p: State, h: Helpers, parts: seq<string>, now: Instant)
    requires |parts| >= 6
    ensures Lookup(Handle(p, h, Gll, parts, now).sensors, Latitude) == Some(Float(h.toDegrees(h.toFloat(parts[1]), parts[2])))
    ensures Lookup(Handle(p, h, Gll, parts, now).sensors, Longitude) == Some(Float(h.toDegrees(h.toFloat(parts[3]), parts[4])))
    ensures Lookup(Handle(p, h, Gll, parts, now).sensors, GpgllTime) == Some(Float(h.toFloat(parts[5])))
  {
    HandlerReading(p, h, Gll, parts, now, 2);
    HandlerReading(p, h, Gll, parts, now, 3);
    HandlerReading(p, h, Gll, parts, now, 4);
  }

  /** A position sentence writes a GPS row, then latitude and longitude,
      then the fix time; so the log snapshot and the track row the trigger
      appends already carry the new position and fix time. */
  lemma PositionBeforeTrigger(p: State, h: Helpers, parts: seq<string>, now: Instant)
    requires |parts| >= 6
    requires Healthy(p)
    ensures HasColumns(Handle(p, h, Gll, parts, now).sensors, TrackColumns)
    ensures Handle(p, h, Gll, parts, now).written == p.written + [
              GpsRow(now, h.toDegrees(h.toFloat(parts[1]), parts[2]), h.toDegrees(h.toFloat(parts[3]), parts[4])),
              LogLine(now, Handle(p, h, Gll, parts, now).sensors),
              TrackRow(now, ColumnValues(Handle(p, h, Gll, parts, now).sensors, TrackColumns))]
  {
    var c := DecodeGll(h, parts);
    var q := Handle(p, h, Gll, parts, now);
    assert q == PerformAll(p, c, now);
    GllShape(h, parts);
    assert c[..4] == [c[0], c[1], c[2], c[3]];
    LoggedThenTriggered(p, c, now, 1);
    HandleHealthy(p, h, Gll, parts, now);
    var gps := GpsRow(now, h.toDegrees(h.toFloat(parts[1]), parts[2]), h.toDegrees(h.toFloat(parts[3]), parts[4]));
    assert RowOf(c[1], now) == [gps];
    assert InsertTracks(q.sensors, now) == TrackRow(now, ColumnValues(q.sensors, TrackColumns));
    assert [gps] + [LogLine(now, q.sensors), InsertTracks(q.sensors, now)] ==
           [gps, LogLine(now, q.sensors), TrackRow(now, ColumnValues(q.sensors, TrackColumns))];
  }

  /** Every handler keeps the pipeline healthy: all track columns present
      and no track row skipped. */
  lemma HandleHealthy(p: State, h: Helpers, kind: Sentence, parts: seq<string>, now: Instant)
    requires |parts| >= Arity(kind)
    requires Healthy(p)
    ensures Healthy(Handle(p, h, kind, parts, now))
  {
    PerformAllHealthy(p, Decode(h, kind, parts), now);
  }

  /** A heading/deviation/variation sentence: the heading, deviation,
      deviation reference and variation go through the float cast, the
      variation reference is kept as text; nothing is logged. */
  lemma HeadingDeviationFields(p: State, h: Helpers, parts: seq<string>, now: Instant)
    requires |parts| >= 6
    ensures Lookup(Handle(p, h, Hdg, parts, now).sensors, HeadingMag) == Some(Float(h.toFloat(parts[1])))
    ensures Lookup(Handle(p, h, Hdg, parts, now).sensors, DeviationDeg) == Some(Float(h.toFloat(parts[2])))
    ensures Lookup(Handle(p, h, Hdg, parts, now).sensors, DeviationRef) == Some(Float(h.toFloat(parts[3])))
    ensures Lookup(Handle(p, h, Hdg, parts, now).sensors, VariationDeg) == Some(Float(h.toFloat(parts[4])))
    ensures Lookup(Handle(p, h, Hdg, parts, now).sensors, VariationRef) == Some(Str(parts[5]))
    ensures Handle(p, h, Hdg, parts, now).written == p.written
  {
    HandlerReading(p, h, Hdg, parts, now, 1);
    HandlerReading(p, h, Hdg, parts, now, 2);
    HandlerReading(p, h, Hdg, parts, now, 3);
    HandlerReading(p, h, Hdg, parts, now, 4);
    HandlerReading(p, h, Hdg, parts, now, 5);
    NothingLogged(p, h, Hdg, parts, now);
  }

  /** The handlers without a logging call write nothing to the log or the
      database. */
  lemma NothingLogged(p: State, h: Helpers, kind: Sentence, parts: seq<string>, now: Instant)
    requires |parts| >= Arity(kind)
    requires LogCall(kind).None?
    ensures Handle(p, h, kind, parts, now).written == p.written
  {
    var calls := Decode(h, kind, parts);
    DecodeShape(h, kind, parts);
    TriggerOnlyFromPosition(kind);
    PerformAllWritten(p, calls, now);
    NoLogRecords(calls, now);
  }

  /** A magnetic heading sentence stores field 1 through the integer cast:
      `$HCHDM,43,M` stores the integer 43, `$HCHDM,43.5,M` the default. */
  lemma MagneticHeadingField(p: State, h: Helpers, parts: seq<string>, now: Instant)
    requires |parts| >= 2
    ensures Lookup(Handle(p, h, Hdm, parts, now).sensors, HeadingMag) == Some(h.toInt(parts[1]))
  {
    HandlerReading(p, h, Hdm, parts, now, 1);
  }

  /** A water speed/heading sentence maps field 1 to the true heading and
      field 3 to the magnetic heading (integers), field 5 to the boat speed
      (float). */
  lemma SpeedAndHeadingFields(p: State, h: Helpers, parts: seq<string>, now: Instant)
    requires |parts| >= 6
    ensures Lookup(Handle(p, h, Vhw, parts, now).sensors, HeadingTrue) == Some(h.toInt(parts[1]))
    ensures Lookup(Handle(p, h, Vhw, parts, now).sensors, HeadingMag) == Some(h.toInt(parts[3]))
    ensures Lookup(Handle(p, h, Vhw, parts, now).sensors, BoatSpeedNm) == Some(Float(h.toFloat(parts[5])))
  {
    HandlerReading(p, h, Vhw, parts, now, 1);
    HandlerReading(p, h, Vhw, parts, now, 2);
    HandlerReading(p, h, Vhw, parts, now, 3);
  }

  /** A water speed/heading sentence writes one boat-speed row, with the
      speed of field 5. */
  lemma BoatSpeedLogged(p: State, h: Helpers, parts: seq<string>, now: Instant)
    requires |parts| >= 6
    ensures Handle(p, h, Vhw, parts, now).written == p.written + [BoatSpeedRow(now, h.toFloat(parts[5]))]
  {
    HandlerLogged(p, h, Vhw, parts, now);
  }

  /** A rate-of-turn sentence stores field 1 as a float under `turnrate`
      (not the `turnrate_deg` field the pipeline starts with). */
  lemma TurnRateField(p: State, h: Helpers, parts: seq<string>, now: Instant)
    requires |parts| >= 2
    ensures Lookup(Handle(p, h, Rot, parts, now).sensors, Turnrate) == Some(Float(h.toFloat(parts[1])))
  {
    HandlerReading(p, h, Rot, parts, now, 1);
  }

  /** A wind sentence maps field 1 to the relative angle and field 3 to the
      speed (floats), keeps the reference (field 2) and units (field 4) as
      text. */
  lemma WindFields(p: State, h: Helpers, parts: seq<string>, now: Instant)
    requires |parts| >= 5
    ensures Lookup(Handle(p, h, Mwv, parts, now).sensors, WindAngleRel) == Some(Float(h.toFloat(parts[1])))
    ensures Lookup(Handle(p, h, Mwv, parts, now).sensors, WindRef) == Some(Str(parts[2]))
    ensures Lookup(Handle(p, h, Mwv, parts, now).sensors, WindSpeedNm) == Some(Float(h.toFloat(parts[3])))
    ensures Lookup(Handle(p, h, Mwv, parts, now).sensors, WindSpeedUnits) == Some(Str(parts[4]))
  {
    HandlerReading(p, h, Mwv, parts, now, 1);
    HandlerReading(p, h, Mwv, parts, now, 2);
    HandlerReading(p, h, Mwv, parts, now, 3);
    HandlerReading(p, h, Mwv, parts, now, 4);
  }

  /** A wind sentence writes one wind row of (speed, angle): field 3, then
      field 1. */
  lemma WindLogged(p: State, h: Helpers, parts: seq<string>, now: Instant)
    requires |parts| >= 5
    ensures Handle(p, h, Mwv, parts, now).written == p.written + [WindRow(now, h.toFloat(parts[3]), h.toFloat(parts[1]))]
  {
    HandlerLogged(p, h, Mwv, parts, now);
  }

  /** A relative wind sentence stores the angle through the integer cast
      and the speed in knots as a float. */
  lemma RelativeWindFields(p: State, h: Helpers, parts: seq<string>, now: Instant)
    requires |parts| >= 4
    ensures Lookup(Handle(p, h, Vwr, parts, now).sensors, WindAngleRelative) == Some(h.toInt(parts[1]))
    ensures Lookup(Handle(p, h, Vwr, parts, now).sensors, WindSpeedKn) == Some(Float(h.toFloat(parts[3])))
  {
    HandlerReading(p, h, Vwr, parts, now, 1);
    HandlerReading(p, h, Vwr, parts, now, 2);
  }
}

=== FILE: numerals.dfy ===
/** Number text as the decoders and the checksum test read and write it:
    Python's `int(x)`, `float(x)` and `int(x, 16)` restricted to plain ASCII
    digit strings, and the renderings `str(n)` and `f"{n:02X}"`. */
module Numerals {
  import opened Optional
  import opened Text

  predicate IsDigit(c: char) {
    '0' <= c <= '9'
  }

  predicate IsHexDigit(c: char) {
    IsDigit(c) || 'a' <= c <= 'f' || 'A' <= c <= 'F'
  }

  /** The value of one hexadecimal digit, either case. */
  function DigitValue(c: char): (d: nat)
    requires IsHexDigit(c)
    ensures d < 16
    ensures IsDigit(c) <==> d < 10
  {
    if IsDigit(c) then c as int - '0' as int
    else if 'a' <= c <= 'f' then c as int - 'a' as int + 10
    else c as int - 'A' as int + 10
  }

  /** The upper-case digit that stands for `d`. */
  function Symbol(d: nat): (c: char)
    requires d < 16
    ensures IsHexDigit(c) && DigitValue(c) == d
    ensures !('a' <= c <= 'f')
  {
    if d < 10 then ('0' as int + d) as char else ('A' as int + d - 10) as char
  }

  /** Every character of `s` is a digit of the given base (10 or 16). */
  predicate AllDigits(s: string, base: nat) {
    forall i :: 0 <= i < |s| ==> IsHexDigit(s[i]) && DigitValue(s[i]) < base
  }

  /** The value of a digit string, most significant digit first. */
  function ValueOf(s: string, base: nat): nat
    requires AllDigits(s, base)
    decreases |s|
  {
    if |s| == 0 then 0
    else ValueOf(s[..|s| - 1], base) * base + DigitValue(s[|s| - 1])
  }

  /** The digits of `n` in `base`, most significant first, without leading
      zeros (`"0"` for zero). */
  function Digits(n: nat, base: nat): (s: string)
    requires 2 <= base <= 16
    ensures |s| >= 1 && AllDigits(s, base)
    ensures forall i :: 0 <= i < |s| ==> !('a' <= s[i] <= 'f')
    ensures n < base <==> |s| == 1
    ensures n > 0 ==> s[0] != '0'
    decreases n
  {
    if n < base then [Symbol(n)]
    else
      QuotientShrinks(n, base);
      Digits(n / base, base) + [Symbol(n % base)]
  }

  lemma QuotientShrinks(n: nat, base: nat)
    requires 2 <= base <= n
    ensures 1 <= n / base < n
    ensures n % base < base
    ensures (n / base) * base + n % base == n
  {
    var q, r := n / base, n % base;
    assert n == q * base + r && 0 <= r < base;
    assert q * base > 0;
    assert q * base == q * 2 + q * (base - 2);
    ProductNonNegative(q, base - 2);
  }

  lemma ProductNonNegative(a: nat, b: nat)
    ensures a * b >= 0
  {
  }

  /** Reading back the rendered digits gives the number. */
  lemma {:induction false} DigitsRoundTrip(n: nat, base: nat)
    requires 2 <= base <= 16
    ensures ValueOf(Digits(n, base), base) == n
    decreases n
  {
    if n >= base {
      QuotientShrinks(n, base);
      var s := Digits(n, base);
      var q, r := n / base, n % base;
      DigitsRoundTrip(q, base);
      assert s[..|s| - 1] == Digits(q, base);
      assert DigitValue(s[|s| - 1]) == r;
      assert ValueOf(s, base) == ValueOf(Digits(q, base), base) * base + r;
      assert q * base + r == n;
    }
  }

  /** Python's optional leading sign: whether it is `-`, and the rest. */
  function SplitSign(s: string): (r: (bool, string))
    ensures r.1 == (if |s| > 0 && (s[0] == '-' || s[0] == '+') then s[1..] else s)
    ensures r.0 <==> |s| > 0 && s[0] == '-'
  {
    if |s| > 0 && (s[0] == '-' || s[0] == '+') then (s[0] == '-', s[1..]) else (false, s)
  }

  /** Python's `int(s)` on a sign and decimal digits; None where Python
      raises `ValueError`. */
  function ParseInt(s: string): (r: Option<int>)
    ensures r.Some? <==> |SplitSign(s).1| > 0 && AllDigits(SplitSign(s).1, 10)
  {
    var negative := SplitSign(s).0;
    var body := SplitSign(s).1;
    if |body| > 0 && AllDigits(body, 10) then
      var magnitude: int := ValueOf(body, 10);
      Some(if negative then -magnitude else magnitude)
    else None
  }

  function Pow10(k: nat): (p: nat)
    ensures p >= 1
  {
    if k == 0 then 1 else 10 * Pow10(k - 1)
  }

  /** The text before the first `.` of a number body. */
  function IntegerPart(body: string): string
    decreases |body|
  {
    if |body| == 0 || body[0] == '.' then "" else [body[0]] + IntegerPart(body[1..])
  }

  /** The text after the first `.` of a number body (empty when there is
      none). */
  function FractionPart(body: string): string
    decreases |body|
  {
    if |body| == 0 then "" else if body[0] == '.' then body[1..] else FractionPart(body[1..])
  }

  /** A number body is its integer part, then `.` and the fraction part
      when it has a point. */
  lemma {:induction false} NumberParts(body: string)
    ensures '.' !in IntegerPart(body)
    ensures '.' in body ==> body == IntegerPart(body) + "." + FractionPart(body)
    ensures '.' !in body ==> IntegerPart(body) == body && FractionPart(body) == ""
    decreases |body|
  {
    if |body| > 0 && body[0] != '.' {
      NumberParts(body[1..]);
      assert body == [body[0]] + body[1..];
    }
  }

  /** The decimal text this model lets `float()` accept: an optional sign,
      then digits with at most one point among them, and at least one
      digit. */
  predicate FloatText(s: string) {
    var body := SplitSign(s).1;
    && DecimalChars(body)
    && Occurrences(body, '.') <= 1
    && body != "" && body != "."
  }

  /** Python's `float(s)` on a sign, digits, an optional point and digits
      (at least one digit in all); None where Python raises `ValueError`. */
  function ParseFloat(s: string): (r: Option<real>)
    ensures r.Some? <==> FloatText(s)
  {
    var negative := SplitSign(s).0;
    var body := SplitSign(s).1;
    var ip := IntegerPart(body);
    var fp := FractionPart(body);
    FloatTextParts(body);
    if AllDigits(ip, 10) && AllDigits(fp, 10) && |ip| + |fp| > 0 then
      var magnitude := DecimalValue(ip, fp);
      Some(if negative then -magnitude else magnitude)
    else None
  }

  /** The value of the decimal `ip.fp`: the integer digits plus the
      fraction digits over ten to the number of fraction digits. */
  function DecimalValue(ip: string, fp: string): real
    requires AllDigits(ip, 10) && AllDigits(fp, 10)
  {
    ValueOf(ip, 10) as real + ValueOf(fp, 10) as real / Pow10(|fp|) as real
  }

  /** Every character is a decimal digit or a point. */
  predicate DecimalChars(s: string) {
    forall i :: 0 <= i < |s| ==> IsDigit(s[i]) || s[i] == '.'
  }

  /** Decimal digit strings are the point-free decimal text. */
  lemma DecimalDigits(s: string)
    ensures AllDigits(s, 10) <==> DecimalChars(s) && '.' !in s
  {
    if DecimalChars(s) && '.' !in s {
      forall i | 0 <= i < |s| ensures IsDigit(s[i]) {
        assert s[i] != '.';
      }
    }
  }

  /** Text around one point is decimal text exactly when both sides are. */
  lemma {:induction false} PointedChars(ip: string, fp: string)
    ensures DecimalChars(ip + "." + fp) <==> DecimalChars(ip) && DecimalChars(fp)
  {
    var body := ip + "." + fp;
    if DecimalChars(body) {
      forall i | 0 <= i < |ip| ensures IsDigit(ip[i]) || ip[i] == '.' {
        assert body[i] == ip[i];
      }
      forall i | 0 <= i < |fp| ensures IsDigit(fp[i]) || fp[i] == '.' {
        assert body[i + |ip| + 1] == fp[i];
      }
    }
  }

  /** The points of text around one point. */
  lemma PointedOccurrences(ip: string, fp: string)
    requires '.' !in ip
    ensures Occurrences(ip + "." + fp, '.') == 1 + Occurrences(fp, '.')
  {
    assert ip + "." + fp == ip + ("." + fp);
    OccurrencesAppend(ip, "." + fp, '.');
    OccurrencesAppend(".", fp, '.');
    assert "."[1..] == "";
  }

  /** A number body is accepted exactly when its integer and fraction parts
      are digit strings, not both empty. */
  lemma FloatTextParts(body: string)
    ensures (AllDigits(IntegerPart(body), 10) && AllDigits(FractionPart(body), 10) &&
             |IntegerPart(body)| + |FractionPart(body)| > 0) <==>
            (DecimalChars(body) && Occurrences(body, '.') <= 1 && body != "" && body != ".")
  {
    var ip, fp := IntegerPart(body), FractionPart(body);
    NumberParts(body);
    DecimalDigits(ip);
    DecimalDigits(fp);
    if '.' in body {
      PointedChars(ip, fp);
      PointedOccurrences(ip, fp);
    } else {
      DecimalDigits(body);
    }
  }

  /** The sign `str()` writes before a number. */
  function SignText(negative: bool): string {
    if negative then "-" else ""
  }

  /** A sign in front of a body that starts with a digit or a point. */
  lemma SplitSignText(negative: bool, body: string)
    requires |body| > 0 && (IsDigit(body[0]) || body[0] == '.')
    ensures SplitSign(SignText(negative) + body) == (negative, body)
  {
    var s := SignText(negative) + body;
    if negative {
      assert s[0] == '-' && s[1..] == body;
    } else {
      assert s == body;
    }
  }

  /** Digits before and after the first point. */
  lemma {:induction false} PointSplit(a: string, f: string)
    requires '.' !in a
    ensures IntegerPart(a + "." + f) == a && FractionPart(a + "." + f) == f
    decreases |a|
  {
    var s := a + "." + f;
    if |a| == 0 {
      assert s[1..] == f;
    } else {
      assert s[1..] == a[1..] + "." + f;
      PointSplit(a[1..], f);
      assert [a[0]] + a[1..] == a;
    }
  }

  /** `float()` on a signed decimal `a.f` is the integer part plus the
      fraction digits scaled by their count. */
  lemma ParseDecimal(negative: bool, a: string, f: string)
    requires AllDigits(a, 10) && AllDigits(f, 10) && |a| + |f| > 0
    ensures var magnitude := ValueOf(a, 10) as real + ValueOf(f, 10) as real / Pow10(|f|) as real;
      && ParseFloat(SignText(negative) + a + "." + f).Some?
      && ParseFloat(SignText(negative) + a + "." + f).value == (if negative then -magnitude else magnitude)
  {
    var magnitude := ValueOf(a, 10) as real + ValueOf(f, 10) as real / Pow10(|f|) as real;
    assert DecimalValue(a, f) == magnitude;
    PointedText(negative, a, f);
  }

  /** The parse of a signed `a.f` is the signed `DecimalValue` of its
      parts. */
  lemma PointedText(negative: bool, a: string, f: string)
    requires AllDigits(a, 10) && AllDigits(f, 10) && |a| + |f| > 0
    ensures ParseFloat(SignText(negative) + a + "." + f) == Some(if negative then -DecimalValue(a, f) else DecimalValue(a, f))
  {
    var body := a + "." + f;
    var s := SignText(negative) + a + "." + f;
    assert forall i :: 0 <= i < |a| ==> IsDigit(a[i]);
    assert '.' !in a;
    assert s == SignText(negative) + body;
    if |a| > 0 {
      assert body[0] == a[0];
    } else {
      assert body[0] == '.';
    }
    SplitSignText(negative, body);
    PointSplit(a, f);
    assert SplitSign(s) == (negative, body);
  }

  /** The integer text is exactly the decimal text without a point. */
  lemma IntegerTextIsPointFree(s: string)
    ensures ParseInt(s).Some? <==> FloatText(s) && '.' !in s
  {
    var body := SplitSign(s).1;
    if |s| > 0 && (s[0] == '-' || s[0] == '+') {
      assert s == [s[0]] + body;
    }
    assert '.' in body ==> '.' in s;
    if '.' !in s {
      assert '.' !in body;
    }
  }

  /** Text `int()` accepts, `float()` accepts too, with the same value. */
  lemma IntegerTextIsFloatText(s: string)
    requires ParseInt(s).Some?
    ensures ParseFloat(s) == Some(ParseInt(s).value as real)
  {
    var body := SplitSign(s).1;
    assert forall i :: 0 <= i < |body| ==> IsDigit(body[i]);
    NumberParts(body);
  }

  /** Python's `str(i)` for an integer. */
  function RenderInt(i: int): string {
    if i < 0 then "-" + Digits(-i, 10) else Digits(i, 10)
  }

  /** `int(str(i)) == i`. */
  lemma ParseRenderInt(i: int)
    ensures ParseInt(RenderInt(i)) == Some(i)
  {
    var m: nat := if i < 0 then -i else i;
    DigitsRoundTrip(m, 10);
    assert RenderInt(i) == SignText(i < 0) + Digits(m, 10);
    ParseSigned(i < 0, Digits(m, 10));
  }

  /** A sign and a digit string parse to the signed value of the digits. */
  lemma ParseSigned(negative: bool, digits: string)
    requires |digits| > 0 && AllDigits(digits, 10)
    ensures ParseInt(SignText(negative) + digits) ==
              Some(if negative then -(ValueOf(digits, 10) as int) else ValueOf(digits, 10))
  {
    var s := SignText(negative) + digits;
    assert SplitSign(s) == (negative, digits) by {
      assert IsDigit(digits[0]);
      SplitSignText(negative, digits);
    }
    var body := SplitSign(s).1;
    assert body == digits;
    assert ParseInt(s).Some?;
    assert ParseInt(s).value == (if negative then -(ValueOf(body, 10) as int) else ValueOf(body, 10));
  }

  /** `int()` reads back the decimal digits of a natural number. */
  lemma ParseDigits(m: nat)
    ensures ParseInt(Digits(m, 10)) == Some(m)
  {
    var digits := Digits(m, 10);
    DigitsRoundTrip(m, 10);
    assert IsDigit(digits[0]);
    assert SplitSign(digits) == (false, digits);
  }

  /** Python's `int(s, 16)` on hexadecimal digits of either case; None where
      Python raises `ValueError`, the empty string included. */
  function ParseHex(s: string): (r: Option<nat>)
    ensures r.Some? <==> |s| > 0 && AllDigits(s, 16)
  {
    if |s| > 0 && AllDigits(s, 16) then Some(ValueOf(s, 16)) else None
  }

  /** Python's `f"{n:02X}"`: upper-case hexadecimal, padded with `0` to at
      least two digits. */
  function Hex02(n: nat): (s: string)
    ensures |s| >= 2 && AllDigits(s, 16)
    ensures forall i :: 0 <= i < |s| ==> !('a' <= s[i] <= 'f')
    ensures n < 256 <==> |s| == 2
    ensures n < 16 ==> s[0] == '0'
    ensures n >= 16 ==> s[0] != '0'
  {
    var digits := Digits(n, 16);
    if n < 16 then "0" + digits else digits
  }

  /** `int(f"{n:02X}", 16) == n`. */
  lemma Hex02RoundTrip(n: nat)
    ensures ParseHex(Hex02(n)) == Some(n)
  {
    DigitsRoundTrip(n, 16);
    var s := Hex02(n);
    if n < 16 {
      assert s[..1] == "0";
      assert ValueOf("0", 16) == 0 by {
        assert "0"[..0] == "";
      }
    }
  }
}

=== FILE: optional.dfy ===
/** The Some/None datatype used wherever a Python conversion can raise
    (`float(x)`, `int(x)`, `int(x, 16)`) and the caller catches the error. */
module Optional {

  datatype Option<+T> = None | Some(value: T) {

    /** Returns the value in Some, or the given default for None. */
    function GetOr(default: T): T {
      match this
      case Some(v) => v
      case None => default
    }
  }
}

=== FILE: pipeline.dfy ===
/** The sensor pipeline: one shared last-writer-wins map from field name to
    current value, per-field update counters, a per-talker/handler tally,
    session counters, and the writes to the external log and database that
    the position-time trigger fires. Every operation is a pure function from
    the old state to the new one; the database and the text log are one
    sequence of appended records, and `datetime.now()` is the `now`
    argument. */
module Pipeline {
  import opened Optional

  /** A clock reading supplied by the caller. */
  type Instant = int

  /** A stored reading: Python `int`, `float` or `str`. */
  datatype Value = Int(i: int) | Float(r: real) | Str(s: string)

  /** The sensor names the code stores readings under; every one of them
      is a literal in the source, so they form a closed set. `Name` gives
      the dictionary key. */
  datatype Field =
    | BoatSpeedNm | DepthM | TurnrateDeg | HeadingMag | DeviationDeg | DeviationDir
    | VariationDeg | VariationDir | HeadingTrue | Latitude | Longitude | GpgllTime
    | WindAngleRel | WindSpeedTrueNm | WindDirRef | WindSpeedApparentNm | WindSpeedUnits
    | DeviationRef | VariationRef | Turnrate | WindRef | WindSpeedNm
    | WindAngleRelative | WindSpeedKn | BaroPresMb | BaroPresIn | TempC
  {
    function Name(): string {
      match this
      case BoatSpeedNm => "boat_speed_nm"
      case DepthM => "depth_m"
      case TurnrateDeg => "turnrate_deg"
      case HeadingMag => "heading_mag"
      case DeviationDeg => "deviation_deg"
      case DeviationDir => "deviation_dir"
      case VariationDeg => "variation_deg"
      case VariationDir => "variation_dir"
      case HeadingTrue => "heading_true"
      case Latitude => "latitude"
      case Longitude => "longitude"
      case GpgllTime => "gpgll_time"
      case WindAngleRel => "wind_angle_rel"
      case WindSpeedTrueNm => "wind_speed_true_nm"
      case WindDirRef => "wind_dir_ref"
      case WindSpeedApparentNm => "wind_speed_apparent_nm"
      case WindSpeedUnits => "wind_speed_units"
      case DeviationRef => "deviation_ref"
      case VariationRef => "variation_ref"
      case Turnrate => "turnrate"
      case WindRef => "wind_ref"
      case WindSpeedNm => "wind_speed_nm"
      case WindAngleRelative => "wind_angle_relative"
      case WindSpeedKn => "wind_speed_kn"
      case BaroPresMb => "baro_pres_mb"
      case BaroPresIn => "baro_pres_in"
      case TempC => "temp_c"
    }
  }

  /** An external write, in the order the source performs it. */
  datatype Record =
    | GpsRow(at: Instant, latitude: real, longitude: real)   // insert_gps_log
    | BoatSpeedRow(at: Instant, speed: real)                 // insert_boat_speed_log
    | WindRow(at: Instant, speed: real, angle: real)         // insert_wind_log
    | LogLine(at: Instant, snapshot: map<Field, Value>)     // append_log
    | TrackRow(at: Instant, values: seq<Value>)              // insert_tracks
    | TrackSkipped                                           // insert_tracks' missing-key diagnostic

  datatype State = State(
    sensors: map<Field, Value>,
    sensorCounter: map<Field, nat>,
    functionCounter: map<string, nat>,
    checkSumErrors: nat,
    updates: nat,
    timeStart: Option<Instant>,   // None plays the role of the initial 0
    timeLast: Option<Instant>,
    written: seq<Record>)

  /** The field whose arrival ends a GPS fix cycle and fires persistence. */
  const TriggerKey := GpgllTime

  /** The columns of a track row, after its timestamp, in order. */
  const TrackColumns: seq<Field> := [
    GpgllTime, Latitude, Longitude, HeadingTrue, HeadingMag,
    BoatSpeedNm, WindSpeedTrueNm, WindDirRef, WindSpeedApparentNm]

  const InitialSensors: map<Field, Value> := map[
    BoatSpeedNm := Int(0), DepthM := Int(0), TurnrateDeg := Int(0),
    HeadingMag := Int(0), DeviationDeg := Int(0), DeviationDir := Int(0),
    VariationDeg := Int(0), VariationDir := Int(0), HeadingTrue := Int(0),
    Latitude := Int(0), Longitude := Int(0), GpgllTime := Int(0),
    WindAngleRel := Int(0), WindSpeedTrueNm := Int(0), WindDirRef := Str("R"),
    WindSpeedApparentNm := Int(0), WindSpeedUnits := Str("")]

  /** The state at process start: every known field at its neutral value,
      all counters zero, nothing written. */
  const Initial := State(InitialSensors, map[], map[], 0, 0, None, None, [])

  /** The value a map holds for `key`, if any. */
  function Lookup(m: map<Field, Value>, key: Field): (r: Option<Value>)
    ensures r.Some? <==> key in m
    ensures r.Some? ==> r.value == m[key]
  {
    if key in m then Some(m[key]) else None
  }

  /** Python's `counter.get(key, 0)`. */
  function Count<K>(m: map<K, nat>, key: K): nat {
    if key in m then m[key] else 0
  }

  /** `add_nmea_function_counter`: one more sighting of `id`. */
  function AddFunctionCounter(p: State, id: string): (q: State)
    ensures Count(q.functionCounter, id) == Count(p.functionCounter, id) + 1
    ensures forall k :: k != id ==> Count(q.functionCounter, k) == Count(p.functionCounter, k)
    ensures q.functionCounter.Keys == p.functionCounter.Keys + {id}
    ensures q == p.(functionCounter := q.functionCounter)
  {
    p.(functionCounter := p.functionCounter[id := Count(p.functionCounter, id) + 1])
  }

  /** `increment_checksum_errors`. */
  function IncrementChecksumErrors(p: State): (q: State)
    ensures q.checkSumErrors == p.checkSumErrors + 1
    ensures q == p.(checkSumErrors := q.checkSumErrors)
  {
    p.(checkSumErrors := p.checkSumErrors + 1)
  }

  predicate HasColumns(sensors: map<Field, Value>, columns: seq<Field>) {
    forall i :: 0 <= i < |columns| ==> columns[i] in sensors
  }

  /** The current values of the given columns, in column order. */
  function ColumnValues(sensors: map<Field, Value>, columns: seq<Field>): (row: seq<Value>)
    requires HasColumns(sensors, columns)
    ensures |row| == |columns|
    ensures forall i :: 0 <= i < |columns| ==> row[i] == sensors[columns[i]]
  {
    seq(|columns|, i requires 0 <= i < |columns| => sensors[columns[i]])
  }

  /** `insert_tracks`: a row of the timestamp and the nine track columns, or
      the diagnostic when one of them is missing. */
  function InsertTracks(sensors: map<Field, Value>, now: Instant): (r: Record)
    ensures r.TrackRow? <==> HasColumns(sensors, TrackColumns)
    ensures r.TrackRow? ==> r.at == now && |r.values| == |TrackColumns|
    ensures r.TrackRow? ==> forall i :: 0 <= i < |TrackColumns| ==> r.values[i] == sensors[TrackColumns[i]]
    ensures !r.TrackRow? ==> r == TrackSkipped
  {
    if HasColumns(sensors, TrackColumns) then TrackRow(now, ColumnValues(sensors, TrackColumns)) else TrackSkipped
  }

  /** `add_reading`: last writer wins for `field`, its counter and the
      session update count go up by one, the session clock moves, and the
      trigger field appends a log snapshot and a track row. */
  function AddReading(p: State, field: Field, value: Value, now: Instant): (q: State)
    ensures Lookup(q.sensors, field) == Some(value)
    ensures forall k :: k != field ==> Lookup(q.sensors, k) == Lookup(p.sensors, k)
    ensures Count(q.sensorCounter, field) == Count(p.sensorCounter, field) + 1
    ensures forall k :: k != field ==> Count(q.sensorCounter, k) == Count(p.sensorCounter, k)
    ensures q.updates == p.updates + 1
    ensures q.timeLast == Some(now)
    ensures p.timeStart.None? ==> q.timeStart == Some(now)
    ensures p.timeStart.Some? ==> q.timeStart == p.timeStart
    ensures q.functionCounter == p.functionCounter && q.checkSumErrors == p.checkSumErrors
    ensures field != TriggerKey ==> q.written == p.written
    ensures field == TriggerKey ==>
              q.written == p.written + [LogLine(now, q.sensors), InsertTracks(q.sensors, now)]
  {
    var q := p.(timeLast := Some(now),
                timeStart := if p.timeStart.None? then Some(now) else p.timeStart,
                updates := p.updates + 1,
                sensors := p.sensors[field := value],
                sensorCounter := p.sensorCounter[field := Count(p.sensorCounter, field) + 1]);
    if field == TriggerKey then
      q.(written := q.written + [LogLine(now, q.sensors), InsertTracks(q.sensors, now)])
    else q
  }

  /** A call a decoder makes into the pipeline. */
  datatype Call =
    | FunctionCounter(id: string)          // add_nmea_function_counter
    | Reading(field: Field, value: Value)  // add_reading
    | GpsLog(latitude: real, longitude: real)
    | BoatSpeedLog(speed: real)
    | WindLog(speed: real, angle: real)

  function Perform(p: State, call: Call, now: Instant): State {
    match call
    case FunctionCounter(id) => AddFunctionCounter(p, id)
    case Reading(field, value) => AddReading(p, field, value, now)
    case GpsLog(lat, lon) => p.(written := p.written + [GpsRow(now, lat, lon)])
    case BoatSpeedLog(speed) => p.(written := p.written + [BoatSpeedRow(now, speed)])
    case WindLog(speed, angle) => p.(written := p.written + [WindRow(now, speed, angle)])
  }

  /** The calls performed one after another, all at the same instant. */
  function PerformAll(p: State, calls: seq<Call>, now: Instant): State
    decreases |calls|
  {
    if |calls| == 0 then p else PerformAll(Perform(p, calls[0], now), calls[1..], now)
  }

  lemma {:induction false} PerformAllAppend(p: State, a: seq<Call>, b: seq<Call>, now: Instant)
    ensures PerformAll(p, a + b, now) == PerformAll(PerformAll(p, a, now), b, now)
    decreases |a|
  {
    if |a| == 0 {
      assert a + b == b;
    } else {
      assert (a + b)[1..] == a[1..] + b;
      PerformAllAppend(Perform(p, a[0], now), a[1..], b, now);
    }
  }

  /** One more call performed from position `k` of a sequence. */
  lemma PerformAllFrom(p: State, calls: seq<Call>, k: nat, now: Instant)
    requires k < |calls|
    ensures PerformAll(p, calls[k..], now) == PerformAll(Perform(p, calls[k], now), calls[k + 1..], now)
  {
    assert calls[k..][1..] == calls[k + 1..];
  }

  // ---------------------------------------------------------------------
  // Reference definitions: what a sequence of calls does to each field.

  /** The value of the last `Reading` for `field` among the calls. */
  function LastWrite(calls: seq<Call>, field: Field): Option<Value>
    decreases |calls|
  {
    if |calls| == 0 then None
    else match LastWrite(calls[1..], field)
      case Some(v) => Some(v)
      case None =>
        if calls[0].Reading? && calls[0].field == field then Some(calls[0].value) else None
  }

  /** The number of `Reading` calls for `field`. */
  function WritesOf(calls: seq<Call>, field: Field): nat
    decreases |calls|
  {
    if |calls| == 0 then 0
    else (if calls[0].Reading? && calls[0].field == field then 1 else 0) + WritesOf(calls[1..], field)
  }

  /** The number of `Reading` calls of any field. */
  function Readings(calls: seq<Call>): nat
    decreases |calls|
  {
    if |calls| == 0 then 0 else (if calls[0].Reading? then 1 else 0) + Readings(calls[1..])
  }

  /** The number of `FunctionCounter` calls for `id`. */
  function TalliesOf(calls: seq<Call>, id: string): nat
    decreases |calls|
  {
    if |calls| == 0 then 0
    else (if calls[0] == FunctionCounter(id) then 1 else 0) + TalliesOf(calls[1..], id)
  }

  /** Fusion is last-writer-wins field by field: after a sequence of calls
      each field holds its last written value (or its old one, or stays
      absent), and its counter grew by its number of writes. */
  lemma {:induction false} PerformAllFields(p: State, calls: seq<Call>, now: Instant, field: Field)
    ensures LastWrite(calls, field).Some? ==> Lookup(PerformAll(p, calls, now).sensors, field) == LastWrite(calls, field)
    ensures LastWrite(calls, field).None? ==> Lookup(PerformAll(p, calls, now).sensors, field) == Lookup(p.sensors, field)
    ensures Count(PerformAll(p, calls, now).sensorCounter, field) == Count(p.sensorCounter, field) + WritesOf(calls, field)
    decreases |calls|
  {
    if |calls| > 0 {
      PerformField(p, calls[0], now, field);
      PerformAllFields(Perform(p, calls[0], now), calls[1..], now, field);
    }
  }

  /** One call: a reading of `field` replaces its value and counts once;
      any other call leaves both alone. */
  lemma PerformField(p: State, call: Call, now: Instant, field: Field)
    ensures call.Reading? && call.field == field ==>
              Lookup(Perform(p, call, now).sensors, field) == Some(call.value) &&
              Count(Perform(p, call, now).sensorCounter, field) == Count(p.sensorCounter, field) + 1
    ensures !(call.Reading? && call.field == field) ==>
              Lookup(Perform(p, call, now).sensors, field) == Lookup(p.sensors, field) &&
              Count(Perform(p, call, now).sensorCounter, field) == Count(p.sensorCounter, field)
  {
    match call
    case Reading(f, v) =>
      var q := AddReading(p, f, v, now);
      if f == field {
        assert Lookup(q.sensors, field) == Some(v);
      } else {
        assert Lookup(q.sensors, field) == Lookup(p.sensors, field);
      }
    case _ =>
  }

  /** After a sequence of calls each tally grew by its number of counter
      calls, the session update count by the number of readings, and the
      checksum-error count did not move. */
  lemma {:induction false} PerformAllCounts(p: State, calls: seq<Call>, now: Instant, id: string)
    ensures Count(PerformAll(p, calls, now).functionCounter, id) == Count(p.functionCounter, id) + TalliesOf(calls, id)
    ensures PerformAll(p, calls, now).updates == p.updates + Readings(calls)
    ensures PerformAll(p, calls, now).checkSumErrors == p.checkSumErrors
    decreases |calls|
  {
    if |calls| > 0 {
      PerformAllCounts(Perform(p, calls[0], now), calls[1..], now, id);
    }
  }

  /** The reading at position `i` is the last one for its field. */
  lemma {:induction false} LastWriteAt(calls: seq<Call>, i: nat)
    requires i < |calls| && calls[i].Reading?
    requires forall j :: i < j < |calls| && calls[j].Reading? ==> calls[j].field != calls[i].field
    ensures LastWrite(calls, calls[i].field) == Some(calls[i].value)
    decreases |calls|
  {
    var field := calls[i].field;
    if i == 0 {
      LastWriteNone(calls[1..], field);
    } else {
      LastWriteAt(calls[1..], i - 1);
    }
  }

  /** The row one logging call appends; none for the other calls. */
  function RowOf(call: Call, now: Instant): seq<Record> {
    match call
    case GpsLog(lat, lon) => [GpsRow(now, lat, lon)]
    case BoatSpeedLog(speed) => [BoatSpeedRow(now, speed)]
    case WindLog(speed, angle) => [WindRow(now, speed, angle)]
    case _ => []
  }

  /** The rows the logging calls append, in order. */
  function LogRecords(calls: seq<Call>, now: Instant): seq<Record>
    decreases |calls|
  {
    if |calls| == 0 then [] else RowOf(calls[0], now) + LogRecords(calls[1..], now)
  }

  lemma {:induction false} LogRecordsAppend(a: seq<Call>, b: seq<Call>, now: Instant)
    ensures LogRecords(a + b, now) == LogRecords(a, now) + LogRecords(b, now)
    decreases |a|
  {
    if |a| == 0 {
      assert a + b == b;
    } else {
      assert (a + b)[1..] == a[1..] + b;
      LogRecordsAppend(a[1..], b, now);
    }
  }

  /** Every call except the one at `at` (if any) is a counter call or a
      reading: nothing else is logged. */
  predicate LogsOnlyAt(calls: seq<Call>, at: Option<nat>) {
    forall j :: 0 <= j < |calls| && Some(j) != at ==> calls[j].FunctionCounter? || calls[j].Reading?
  }

  /** Counter calls and readings log nothing. */
  lemma {:induction false} NoLogRecords(calls: seq<Call>, now: Instant)
    requires LogsOnlyAt(calls, None)
    ensures LogRecords(calls, now) == []
    decreases |calls|
  {
    if |calls| > 0 {
      assert calls[0].FunctionCounter? || calls[0].Reading?;
      assert LogsOnlyAt(calls[1..], None) by {
        forall j | 0 <= j < |calls| - 1 ensures calls[1..][j].FunctionCounter? || calls[1..][j].Reading? {
          assert calls[1..][j] == calls[j + 1];
        }
      }
      NoLogRecords(calls[1..], now);
    }
  }

  /** Without a reading of the trigger field, the calls append exactly the
      rows of their logging calls. */
  lemma {:induction false} PerformAllWritten(p: State, calls: seq<Call>, now: Instant)
    requires forall c :: c in calls && c.Reading? ==> c.field != TriggerKey
    ensures PerformAll(p, calls, now).written == p.written + LogRecords(calls, now)
    decreases |calls|
  {
    if |calls| > 0 {
      assert calls[0] in calls;
      assert forall c :: c in calls[1..] ==> c in calls;
      PerformWritten(p, calls[0], now);
      PerformAllWritten(Perform(p, calls[0], now), calls[1..], now);
    }
  }

  /** One call other than a reading of the trigger field appends its own
      row, if any. */
  lemma PerformWritten(p: State, call: Call, now: Instant)
    requires !(call.Reading? && call.field == TriggerKey)
    ensures Perform(p, call, now).written == p.written + RowOf(call, now)
  {
  }

  /** Calls whose only logging call is the one at `k` log exactly that
      call's row. */
  lemma LoggedOnce(calls: seq<Call>, now: Instant, k: nat)
    requires k < |calls| && LogsOnlyAt(calls, Some(k))
    ensures LogRecords(calls, now) == RowOf(calls[k], now)
  {
    var pre, x, post := calls[..k], calls[k], calls[k + 1..];
    assert calls == pre + [x] + post;
    LogRecordsAppend(pre + [x], post, now);
    LogRecordsAppend(pre, [x], now);
    assert LogsOnlyAt(pre, None) by {
      forall j | 0 <= j < |pre| ensures pre[j].FunctionCounter? || pre[j].Reading? {
        assert pre[j] == calls[j];
      }
    }
    assert LogsOnlyAt(post, None) by {
      forall j | 0 <= j < |post| ensures post[j].FunctionCounter? || post[j].Reading? {
        assert post[j] == calls[k + 1 + j];
      }
    }
    NoLogRecords(pre, now);
    NoLogRecords(post, now);
    assert [x][1..] == [];
  }

  /** Calls that end with the one reading of the trigger field and log
      only at `k` before it: that call's row, then the snapshot and the
      track row the trigger appends, both taken from the final sensors. */
  lemma LoggedThenTriggered(p: State, calls: seq<Call>, now: Instant, k: nat)
    requires k + 1 < |calls| && LogsOnlyAt(calls[..|calls| - 1], Some(k))
    requires forall j :: 0 <= j < |calls| - 1 && calls[j].Reading? ==> calls[j].field != TriggerKey
    requires calls[|calls| - 1].Reading? && calls[|calls| - 1].field == TriggerKey
    ensures PerformAll(p, calls, now).written ==
              p.written + RowOf(calls[k], now) +
              [LogLine(now, PerformAll(p, calls, now).sensors), InsertTracks(PerformAll(p, calls, now).sensors, now)]
  {
    var init, last := calls[..|calls| - 1], calls[|calls| - 1];
    assert calls == init + [last];
    PerformAllAppend(p, init, [last], now);
    assert forall c :: c in init && c.Reading? ==> c.field != TriggerKey by {
      forall c | c in init && c.Reading? ensures c.field != TriggerKey {
        var j :| 0 <= j < |init| && init[j] == c;
        assert calls[j] == c;
      }
    }
    PerformAllWritten(p, init, now);
    LoggedOnce(init, now, k);
    assert [last][1..] == [];
  }

  /** No two readings among the calls are for the same field. */
  predicate DistinctReadings(calls: seq<Call>) {
    forall i, j :: 0 <= i < j < |calls| && calls[i].Reading? && calls[j].Reading? ==> calls[i].field != calls[j].field
  }

  /** When every reading is for a field of its own, each one is what its
      field holds afterwards. */
  lemma ReadingSticks(p: State, calls: seq<Call>, now: Instant, i: nat)
    requires DistinctReadings(calls)
    requires i < |calls| && calls[i].Reading?
    ensures Lookup(PerformAll(p, calls, now).sensors, calls[i].field) == Some(calls[i].value)
  {
    LastWriteAt(calls, i);
    PerformAllFields(p, calls, now, calls[i].field);
  }

  /** Calls that make no counter call for `id` leave its tally alone. */
  lemma {:induction false} TalliesOfNone(calls: seq<Call>, id: string)
    requires forall c :: c in calls && c.FunctionCounter? ==> c.id != id
    ensures TalliesOf(calls, id) == 0
    decreases |calls|
  {
    if |calls| > 0 {
      assert calls[0] in calls;
      assert forall c :: c in calls[1..] ==> c in calls;
      TalliesOfNone(calls[1..], id);
    }
  }

  /** Calls that make no reading of `field` neither write nor count it. */
  lemma {:induction false} LastWriteNone(calls: seq<Call>, field: Field)
    requires forall c :: c in calls && c.Reading? ==> c.field != field
    ensures LastWrite(calls, field) == None && WritesOf(calls, field) == 0
    decreases |calls|
  {
    if |calls| > 0 {
      assert calls[0] in calls;
      assert forall c :: c in calls[1..] ==> c in calls;
      LastWriteNone(calls[1..], field);
    }
  }

  /** Calls that make no reading of `field` leave its value and its update
      count as they were. */
  lemma UnwrittenField(p: State, calls: seq<Call>, now: Instant, field: Field)
    requires forall c :: c in calls && c.Reading? ==> c.field != field
    ensures Lookup(PerformAll(p, calls, now).sensors, field) == Lookup(p.sensors, field)
    ensures Count(PerformAll(p, calls, now).sensorCounter, field) == Count(p.sensorCounter, field)
  {
    LastWriteNone(calls, field);
    PerformAllFields(p, calls, now, field);
  }

  /** Two readings of one field in a row: the second one is what remains. */
  lemma LastWriterWins(p: State, field: Field, a: Value, b: Value, t1: Instant, t2: Instant)
    ensures AddReading(AddReading(p, field, a, t1), field, b, t2).sensors == AddReading(p, field, b, t2).sensors
  {
  }

  // ---------------------------------------------------------------------
  // The track-row guard never fails.

  /** Every track column is present and no track insert has been skipped. */
  predicate Healthy(p: State) {
    HasColumns(p.sensors, TrackColumns) && TrackSkipped !in p.written
  }

  lemma InitialHealthy()
    ensures Healthy(Initial)
  {
  }

  lemma PerformHealthy(p: State, call: Call, now: Instant)
    requires Healthy(p)
    ensures Healthy(Perform(p, call, now))
  {
    if call.Reading? {
      var q := AddReading(p, call.field, call.value, now);
      assert HasColumns(q.sensors, TrackColumns);
      if call.field == TriggerKey {
        assert q.written == p.written + [LogLine(now, q.sensors), InsertTracks(q.sensors, now)];
        assert InsertTracks(q.sensors, now).TrackRow?;
      }
    }
  }

  /** No sequence of calls removes a track column, so from a healthy state
      every trigger inserts a full track row. */
  lemma {:induction false} PerformAllHealthy(p: State, calls: seq<Call>, now: Instant)
    requires Healthy(p)
    ensures Healthy(PerformAll(p, calls, now))
    decreases |calls|
  {
    if |calls| > 0 {
      PerformHealthy(p, calls[0], now);
      PerformAllHealthy(Perform(p, calls[0], now), calls[1..], now);
    }
  }
}

=== FILE: text.dfy ===
/** The handful of Python `str` operations the ingestion path relies on:
    `startswith`, `in`, `split(sep)` for a one-character separator, the
    inverse `sep.join(...)`, `replace(c, "")` and `strip()`. */
module Text {

  predicate StartsWith(s: string, prefix: string) {
    |prefix| <= |s| && s[..|prefix|] == prefix
  }

  /** Number of occurrences of `c` in `s`. */
  function Occurrences(s: string, c: char): (n: nat)
    ensures n <= |s|
    ensures n == 0 <==> c !in s
    decreases |s|
  {
    if |s| == 0 then 0
    else (if s[0] == c then 1 else 0) + Occurrences(s[1..], c)
  }

  lemma {:induction false} OccurrencesAppend(a: string, b: string, c: char)
    ensures Occurrences(a + b, c) == Occurrences(a, c) + Occurrences(b, c)
    decreases |a|
  {
    if |a| == 0 {
      assert a + b == b;
    } else {
      assert (a + b)[1..] == a[1..] + b;
      OccurrencesAppend(a[1..], b, c);
    }
  }

  /** Python's `s.split(sep)`: the maximal separator-free pieces of `s`, in
      order. An empty string gives one empty piece, and two adjacent
      separators give an empty piece between them. */
  function Split(s: string, sep: char): (parts: seq<string>)
    ensures |parts| == Occurrences(s, sep) + 1
    ensures forall i :: 0 <= i < |parts| ==> sep !in parts[i]
    decreases |s|
  {
    if |s| == 0 then [""]
    else
      var rest := Split(s[1..], sep);
      if s[0] == sep then [""] + rest
      else [[s[0]] + rest[0]] + rest[1..]
  }

  /** Python's `sep.join(parts)`. */
  function Join(parts: seq<string>, sep: char): string
    requires |parts| >= 1
    decreases |parts|
  {
    if |parts| == 1 then parts[0] else parts[0] + [sep] + Join(parts[1..], sep)
  }

  /** Joining the pieces of a split gives the original text back. */
  lemma {:induction false} JoinSplit(s: string, sep: char)
    ensures Join(Split(s, sep), sep) == s
    decreases |s|
  {
    if |s| > 0 {
      var rest := Split(s[1..], sep);
      JoinSplit(s[1..], sep);
      if s[0] == sep {
        assert Split(s, sep)[1..] == rest;
      } else if |rest| == 1 {
        assert Split(s, sep) == [[s[0]] + rest[0]];
      } else {
        assert Split(s, sep)[1..] == rest[1..];
        assert Join(rest, sep) == rest[0] + [sep] + Join(rest[1..], sep);
        assert s == [s[0]] + s[1..];
      }
    }
  }

  /** Splitting text that has no separator gives it back whole. */
  lemma {:induction false} SplitNoSeparator(a: string, sep: char)
    requires sep !in a
    ensures Split(a, sep) == [a]
    decreases |a|
  {
    if |a| > 0 {
      assert sep !in a[1..];
      SplitNoSeparator(a[1..], sep);
      assert [a[0]] + a[1..] == a;
    }
  }

  /** A separator-free head followed by a separator is split off as the
      first piece. */
  lemma {:induction false} SplitHead(a: string, sep: char, rest: string)
    requires sep !in a
    ensures Split(a + [sep] + rest, sep) == [a] + Split(rest, sep)
    decreases |a|
  {
    var s := a + [sep] + rest;
    if |a| == 0 {
      assert s == [sep] + rest;
      assert s[1..] == rest;
    } else {
      assert s[1..] == a[1..] + [sep] + rest;
      assert sep !in a[1..];
      SplitHead(a[1..], sep, rest);
      assert [a[0]] + a[1..] == a;
    }
  }

  /** Splitting a join of separator-free pieces gives the pieces back. */
  lemma {:induction false} SplitJoin(parts: seq<string>, sep: char)
    requires |parts| >= 1
    requires forall i :: 0 <= i < |parts| ==> sep !in parts[i]
    ensures Split(Join(parts, sep), sep) == parts
    decreases |parts|
  {
    if |parts| == 1 {
      SplitNoSeparator(parts[0], sep);
    } else {
      SplitJoin(parts[1..], sep);
      SplitHead(parts[0], sep, Join(parts[1..], sep));
      assert [parts[0]] + parts[1..] == parts;
    }
  }

  /** Python's `s.split(sep)[0]`: the text before the first separator. */
  function FirstField(s: string, sep: char): (head: string)
    ensures sep !in head
    ensures StartsWith(s, head)
    ensures |head| < |s| ==> s[|head|] == sep
    ensures sep in s <==> |head| < |s|
  {
    JoinSplit(s, sep);
    var parts := Split(s, sep);
    if |parts| == 1 then parts[0]
    else
      assert s == parts[0] + [sep] + Join(parts[1..], sep);
      assert s[..|parts[0]|] == parts[0];
      parts[0]
  }

  /** The characters Python's `str.isspace` accepts (and `str.strip()`
      removes). */
  predicate IsSpace(c: char) {
    var n := c as int;
    || (9 <= n <= 13) || (28 <= n <= 32) || n == 0x85 || n == 0xA0
    || n == 0x1680 || (0x2000 <= n <= 0x200A) || n == 0x2028 || n == 0x2029
    || n == 0x202F || n == 0x205F || n == 0x3000
  }

  /** Python's `s.lstrip()`: drops the maximal whitespace prefix. */
  function TrimStart(s: string): (r: string)
    ensures |r| <= |s| && r == s[|s| - |r|..]
    ensures forall k :: 0 <= k < |s| - |r| ==> IsSpace(s[k])
    ensures |r| > 0 ==> !IsSpace(r[0])
    decreases |s|
  {
    if |s| > 0 && IsSpace(s[0]) then TrimStart(s[1..]) else s
  }

  /** Python's `s.rstrip()`: drops the maximal whitespace suffix. */
  function TrimEnd(s: string): (r: string)
    ensures |r| <= |s| && r == s[..|r|]
    ensures forall k :: |r| <= k < |s| ==> IsSpace(s[k])
    ensures |r| > 0 ==> !IsSpace(r[|r| - 1])
    decreases |s|
  {
    if |s| > 0 && IsSpace(s[|s| - 1]) then TrimEnd(s[..|s| - 1]) else s
  }

  /** Python's `s.strip()`. */
  function Strip(s: string): string {
    TrimEnd(TrimStart(s))
  }

  /** Text that neither starts nor ends with whitespace is left as it is by
      `strip()`. */
  lemma StripStripped(s: string)
    requires |s| > 0 ==> !IsSpace(s[0]) && !IsSpace(s[|s| - 1])
    ensures Strip(s) == s
  {
  }

  /** Python's `s.replace(c, "")`: every occurrence of `c` removed, the
      rest kept in order. */
  function RemoveAll(s: string, c: char): (r: string)
    ensures c !in r
    ensures |r| == |s| - Occurrences(s, c)
    ensures c !in s ==> r == s
    decreases |s|
  {
    if |s| == 0 then ""
    else if s[0] == c then RemoveAll(s[1..], c)
    else [s[0]] + RemoveAll(s[1..], c)
  }
}
